=== FILE: README.md ===
# Address explode pipeline, `.env` reader and synthetic ID allocation: a Dafny model

This project models three pieces of logic that sit inside script-level I/O code in
the repository.

- **The address "explode" pipeline.** It exists in three scripts:
  - `explode_address.py`
  - `locations_expansion.py`
  - `explode_address_final.py`

  Each script reads a table and decodes the text blob in its `address` column, row
  by row. It flattens the decoded mappings into one column per key, drops `address`,
  and appends the new columns. The scripts differ in how they decode:
  - `explode_address.py` normalizes the blob's whitespace, then tries JSON, then a
    Python literal, then falls back to `{}`.
  - `locations_expansion.py` tries JSON only, on the raw text.
  - `explode_address_final.py` tries a Python literal only, after a blank-text guard.
- **The hand-written `.env` reader** that `vanna_train.py` and `run_vanna_api.py`
  both carry. It has three parts:
  - Parsing: each stripped line is matched against five `DB_*=` prefixes. The value
    is everything after the first `=`, with per-key quote removal, and the port goes
    through `int()`.
  - Export: the parsed config is written into the process environment.
  - Connection: the parameters are built from that environment.

  The two copies differ only in comments and debug output, so one model serves both.
- **Synthetic ID allocation** in `faker_data.py`. Each tenant gets a contiguous block
  of location IDs. Reviews get sequential comment IDs and a location from their own
  tenant's block. Each review becomes a five-field CSV row.

Modules:

- `Wrappers`: `Option` and `Result`.
- `Normalizer`: `clean_address`, and Python's whitespace test as used by
  `str.strip()` and the regular expression class `\s`.
- `StructureParser`: the three `parse_address` functions. `json.loads` and
  `ast.literal_eval` are abstract partial functions `string -> Option<Parsed<V>>`,
  where `None` means "raised".
- `Flattener`: `.apply(pd.Series)`. The schema is the keys of all rows, each once, in
  first-seen order. Each row is reindexed onto the schema, with a null marker for
  each missing key.
- `Explode`: `pd.concat([df.drop(columns=['address']), address_df], axis=1)` and the
  three pipelines.
- `PyNumbers`: Python `int()` on base-10 text and `str()` on integers. `int()` skips a
  narrower whitespace set than `str.strip()`: the ASCII separators U+001C..U+001F
  are whitespace to `str.strip()` but make `int()` raise.
- `DbEnv`: the `.env` line parser, the export loop, and the connection parameters.
- `FakerIds`: the block allocation, the review generation loop, and the row shape.

Behaviour of the code that the model keeps as written:

- A decoded value that is not a mapping (a list, a number, a string) is not turned
  into a single-key mapping. The scripts hand it to pandas as it is. The model keeps
  it as `Parsed.NonMapping` and leaves its column expansion to a parameter
  `expand`, so no key name is invented.
- `locations_expansion.py` does not clean its input, although the comment on its
  line 13 says it does. `JsonOnlyDoesNotClean` shows a blob that the tolerant parser
  decodes and this one does not.
- `explode_address.py` has no blank-text guard. Blank text is cleaned to `""` and
  then goes to both decoders.
- On a table without rows, `Series.apply` returns an empty `address` Series and
  `pd.concat` turns it into one empty column named `address`. So the output of an
  empty table has the kept columns followed by `address`, not by an empty schema.
  `DerivedColumns` states this.
- `explode_address_final.py` reads `data/locations_exploded.csv`, which is the output
  of the other two scripts. When the input had rows, that output no longer has an
  `address` column, so the script stops. The exception is when some decoded blob
  itself had a key named `address`. Usually `df['address']` raises `KeyError`. If the
  input had only the `address` column and every blob decoded to an empty mapping,
  no column is left at all: the written file holds only blank lines and
  `pd.read_csv` raises `EmptyDataError` first. `FinalPassNeedsNestedAddressKey`
  states this.
- Writing a value with an embedded NUL character into `os.environ` raises
  `ValueError`, and the export loop does not catch it. The script stops there.
  `ExportToEnviron` states this.
- After the hand-written export, both scripts call `load_dotenv()` with its default
  `override=False`. It fills in every variable that the dotenv library reads from the
  file and that the environment does not already have. A `DB_PORT` that the manual
  parser rejected and deleted can therefore come back from the dotenv library's own
  reading of the file. `LoadDotenv` and `PortEndToEnd` state this.

## Model

| member | source | states |
|---|---|---|
| Normalizer.CleanAddress | code/explode_address.py:12-19 | A null blob stays null; text becomes normalized: no whitespace at either end, only single spaces inside, never two whitespace characters in a row |
| Normalizer.Clean | code/explode_address.py:16-18 | The cleaned text is normalized, and it is empty exactly when the input was all whitespace |
| Normalizer.Strip | code/explode_address.py:16 | `str.strip()` leaves no whitespace at either end, and gives `""` exactly for all-whitespace input |
| Normalizer.StripTrims | code/explode_address.py:16 | The stripped text is a slice of the input with only whitespace before and after it |
| Normalizer.LStrip | code/explode_address.py:16 | The result is a suffix of the input that does not start with whitespace, and everything removed is whitespace |
| Normalizer.RStrip | code/explode_address.py:16 | The result is a prefix of the input that does not end with whitespace, and everything removed is whitespace |
| Normalizer.CollapseShape | code/explode_address.py:18 | After `re.sub(r'\s+', ' ', s)` the only whitespace is single spaces with no two adjacent; the result is empty exactly for empty input and keeps whitespace at the ends exactly where the input had it |
| Normalizer.NormalizedIsFixpoint | code/explode_address.py:12-19 | Text that is already normalized comes out of `clean_address` unchanged |
| Normalizer.CleanIdempotent | code/explode_address.py:12-19 | Cleaning twice is the same as cleaning once |
| Normalizer.CleanIsJoinedWords | code/explode_address.py:16-18 | Strip-then-collapse equals the independent definition `' '.join(s.split())` |
| Normalizer.StripIgnoresSurroundingSpace | code/explode_address.py:16 | `str.strip()` is unaffected by whitespace added around its argument |
| StructureParser.FirstSuccess | code/explode_address.py:28-32 | The ordered fallback gives `None` exactly when every decoder fails, and otherwise the result of the first decoder that succeeds |
| StructureParser.FirstSuccessIgnoresLater | code/explode_address.py:28-32 | Once a decoder succeeds, the decoders after it can be replaced without changing the result |
| StructureParser.ParseTolerant | code/explode_address.py:22-35 | Null gives `{}`; otherwise the cleaned text's JSON result if JSON succeeds, else its literal result if that succeeds, else `{}` |
| StructureParser.LiteralOnlyAfterJsonFails | code/explode_address.py:28-32 | When JSON succeeds on the cleaned text, its result is returned and the literal decoder has no influence |
| StructureParser.TolerantNeverFails | code/explode_address.py:22-35 | The parser never raises: its result is `{}` or one decoder's output on the cleaned text, and it is `{}` when both decoders fail |
| StructureParser.TolerantSeesCleanedText | code/explode_address.py:26-32 | Two blobs with the same words decode identically, whatever their whitespace |
| StructureParser.ParseJsonOnly | code/locations_expansion.py:11-17 | Null gives `{}`; otherwise the JSON result on the raw text, or `{}` when JSON fails |
| StructureParser.JsonOnlyIsTolerantWithoutFallback | code/locations_expansion.py:14-17 | On already-normalized text on which the literal decoder fails, the JSON-only parser agrees with the tolerant parser: it is the same code minus the cleaning and the second strategy |
| StructureParser.JsonOnlyDoesNotClean | code/locations_expansion.py:13-14 | When cleaning would change a blob, a JSON decoder that accepts only the cleaned form succeeds in the tolerant parser and fails here |
| StructureParser.ParseLiteralOnly | code/explode_address_final.py:8-16 | Null or all-whitespace text gives `{}`; otherwise the literal decoder's result on the raw text, or `{}` when it fails |
| StructureParser.BlankNeverDecoded | code/explode_address_final.py:10-11 | Blank text gives `{}` whatever the decoder does |
| StructureParser.LiteralOnlySeesRawText | code/explode_address_final.py:13 | The result depends only on the decoder's output for the text exactly as written |
| Flattener.Lookup | code/explode_address.py:42 | A key's value is found exactly when the mapping has that key, and it is the value stored under it |
| Flattener.Schema | code/explode_address.py:42 | The columns are pairwise distinct and are exactly the keys that occur in some row |
| Flattener.SchemaFirstSeenOrder | code/explode_address.py:42 | The columns are ordered by where each key first occurs in a row-by-row scan |
| Flattener.DedupKeepsFirstOccurrenceOrder | code/explode_address.py:42 | The insertion-ordered set lists its elements in order of first occurrence |
| Flattener.ComputeSchema | code/explode_address.py:42 | The two-pass algorithm's first pass, an insertion-ordered set filled row by row, yields exactly the schema |
| Flattener.Fragment | code/explode_address.py:42 | A reindexed row has one cell per column, which is null exactly when the row lacks that key and otherwise holds the row's value for it |
| Flattener.Flatten | code/explode_address.py:42 | The flattened column is a rectangle with one row per input row, over the union of keys, with null exactly where a key is missing |
| Flattener.FlattenLossless | code/explode_address.py:42 | Every key/value pair of every row appears in that row, under the column named by its key |
| Flattener.SharedKeysRoundTrip | code/explode_address.py:42 | When every row has the same keys in the same order, the columns are those keys and each row's values come back in order |
| Explode.Structures | code/explode_address.py:42 | One parsed structure per row, each the parser's result on that row's `address` cell |
| Explode.DerivedColumns | code/explode_address.py:42-45 | The appended columns are the schema when the table has rows, and the single column `address` when it has none |
| Explode.Merged | code/explode_address.py:45 | The concatenated table has the kept columns then the derived columns, one row per input row, each row as wide as the header |
| Explode.RemoveAt | code/explode_address.py:45 | Dropping a column keeps every other column, in order |
| Explode.AddressDropped | code/explode_address.py:45 | With distinct column names, no `address` column remains after the drop |
| Explode.MergeRow | code/explode_address.py:45 | An output row is the kept input cells followed by the row's flattened cells |
| Explode.ExplodeWith | code/explode_address.py:42-45 | `KeyError` exactly when there is no `address` column. Otherwise the columns are the other input columns in order, then the schema, or `address` when there are no rows. Row count and order are kept, the result is rectangular, kept cells are carried over, and new cells are the flattened values |
| Explode.DerivedCells | code/explode_address.py:42-45 | A new cell is null exactly when the row's mapping lacks that column's key, and otherwise holds the mapping's value for it |
| Explode.EmptyBlobRowIsKept | code/explode_address.py:42-45 | A row whose blob parses to `{}` is kept, with its other cells carried over and null in every new column |
| Explode.ExplodeAddress | code/explode_address.py:22-45 | The first script fails only without an `address` column; it keeps row count, is rectangular, and its columns are the kept columns then the keys of the tolerant parser's results, or `address` when there are no rows |
| Explode.ExplodeAddressKeepsUnparsedRows | code/explode_address.py:33-45 | A row whose blob is null or defeats both decoders after cleaning gets null in every new column |
| Explode.LocationsExpansion | code/locations_expansion.py:11-23 | The JSON-only script fails only without an `address` column; it keeps row count and its columns are the kept columns then the keys of the JSON results, or `address` when there are no rows |
| Explode.LocationsKeepsUnparsedRows | code/locations_expansion.py:14-23 | A row whose blob is null or not JSON as written gets null in every new column |
| Explode.ExplodeAddressFinal | code/explode_address_final.py:8-22 | The literal-only script fails only without an `address` column; it keeps row count and its columns are the kept columns then the keys of the literal results, or `address` when there are no rows |
| Explode.FinalKeepsUnparsedRows | code/explode_address_final.py:10-22 | A row whose blob is null, blank or not a Python literal gets null in every new column |
| Explode.Reload | code/explode_address_final.py:4-6 | Re-reading a written table whose column names are distinct fails with `EmptyDataError` exactly when it has no columns; otherwise it keeps its columns and row count and is well formed |
| Explode.FinalPassNeedsNestedAddressKey | code/explode_address_final.py:4-22 | Run on the first pass's output, the final pass stops exactly when the input had rows and no decoded blob had a key named `address`. It stops with `EmptyDataError` exactly when no column is left (only `address` in the input, no decoded keys), and with `KeyError` otherwise |
| PyNumbers.DropUnderscores | code/vanna_train.py:63 | Removing the group separators from digits-and-underscores leaves only digits, and no underscore at all |
| PyNumbers.DropUnderscoresConcat | code/vanna_train.py:63 | Removing separators from joined text is removing them from each part |
| PyNumbers.DecimalValueConcat | code/vanna_train.py:63 | The value of two digit strings written together is the first shifted by the second's length, plus the second |
| PyNumbers.ParseDigits | code/vanna_train.py:63 | The unsigned part of `int()` succeeds exactly on digit groups separated by single underscores; plain digits give their decimal value |
| PyNumbers.ParseDigitsSeparated | code/vanna_train.py:63 | An underscore between two digit groups only separates them: `int("1_000")` is the value of `1000` |
| PyNumbers.IntStrip | code/vanna_train.py:63 | The text `int()` parses has no `int()` whitespace at either end, and is empty exactly when the argument is all such whitespace |
| PyNumbers.IntStripTrims | code/vanna_train.py:63 | That text is a slice of the argument with only `int()` whitespace around it |
| PyNumbers.PyInt | code/vanna_train.py:62-66 | `int()` never succeeds on empty or all-whitespace text |
| PyNumbers.PyIntMeaning | code/vanna_train.py:62-66 | `int()` succeeds exactly when the text left after skipping `int()` whitespace is non-empty and, after one optional sign, digit groups; the value is the groups' digits read in base 10, negated under `-` |
| PyNumbers.LeadingSeparatorRejected | code/vanna_train.py:62-66 | A leading U+001C..U+001F character makes `int()` fail, although `str.strip()` counts it as whitespace |
| PyNumbers.StrayCharacterRejected | code/vanna_train.py:62-66 | A character that is neither a digit, an underscore nor a leading sign makes `int()` fail, which gives `None` |
| PyNumbers.MisplacedUnderscoreRejected | code/vanna_train.py:62-66 | An underscore at the start or end of the digits, or doubled, makes `int()` fail |
| PyNumbers.PyIntOfDigits | code/vanna_train.py:62-63 | A non-empty run of ASCII digits parses to its decimal value |
| PyNumbers.NatToStr | code/vanna_train.py:79 | `str()` of a natural number is a non-empty string of digits with no leading zero; it is the one digit `0` exactly for zero |
| PyNumbers.IntToStr | code/vanna_train.py:79 | `str()` of an integer is non-empty, starts with `-` exactly for negative numbers, and is digits after that |
| PyNumbers.DecimalValueOfNatToStr | code/vanna_train.py:79 | The digits that `str()` writes denote the number |
| PyNumbers.IntRoundTrip | code/run_vanna_api.py:148-152 | `int(str(n)) == n` for every integer, negative ones included |
| DbEnv.RuleFor | code/vanna_train.py:31-61 | Only `DB_HOST`, `DB_NAME` and `DB_USER` are limited to double quotes; `DB_PASSWORD` and `DB_PORT` accept either kind |
| DbEnv.PrefixesDisjoint | code/vanna_train.py:31-55 | No line starts with two of the five `DB_*=` prefixes |
| DbEnv.MatchKey | code/vanna_train.py:31-55 | The `if`/`elif` chain selects a key exactly when the line starts with that key's prefix |
| DbEnv.SplitOnce | code/vanna_train.py:32 | `split('=', 1)` gives one part exactly when there is no `=`, and otherwise the text before the first `=` and everything after it |
| DbEnv.ValueIsRestOfLine | code/vanna_train.py:31-32 | On a matched line, `split('=', 1)[1]` exists and is the line without its prefix, later `=` characters included |
| DbEnv.Unquote | code/vanna_train.py:49-52 | The value loses its first and last characters exactly when they are both an accepted quote, double quotes taking precedence; otherwise it is unchanged |
| DbEnv.UnquoteQuoted | code/vanna_train.py:58-61 | Wrapping text in an accepted quote and unquoting gives the text back |
| DbEnv.UnquoteUnquoted | code/run_vanna_api.py:47-50 | A value that does not start with a quote is left unchanged |
| DbEnv.DoubleOnlyKeepsSingleQuotes | code/vanna_train.py:33-34 | `DB_HOST`, `DB_NAME` and `DB_USER` keep single quotes |
| DbEnv.LoneQuoteBecomesEmpty | code/vanna_train.py:33-34 | A lone `"` becomes `""` for every key; a lone `'` does too under the double-or-single rule, and is kept under the double-only rule |
| DbEnv.LineSetting | code/vanna_train.py:31-66 | Text for four keys, unquoted by the key's rule; for `DB_PORT`, the `int()` of the unquoted value, or `None` exactly when it does not parse |
| DbEnv.LineUpdate | code/run_vanna_api.py:20-55 | A line updates nothing exactly when its stripped form matches no prefix; otherwise it updates the matched key with a value of that key's type |
| DbEnv.LineUpdateIgnoresSurroundingSpace | code/vanna_train.py:27 | Whitespace around a line does not change what it sets |
| DbEnv.PortLine | code/run_vanna_api.py:45-46 | A `DB_PORT=` line sets the port from the text after the prefix |
| DbEnv.PortLineDigits | code/vanna_train.py:55-63 | `DB_PORT=` followed by digits, bare or in either kind of quotes, sets the port to that number |
| DbEnv.PortLineEmpty | code/vanna_train.py:62-66 | An empty port value, bare or quoted, sets the port to `None` |
| DbEnv.ApplyAll | code/vanna_train.py:26-66 | Every value in the config came from some line's update of that key |
| DbEnv.ApplyAllPresent | code/vanna_train.py:26-66 | A key is in the config exactly when some update sets it |
| DbEnv.ApplyAllLastWins | code/vanna_train.py:26-66 | The last update of a key decides its value |
| DbEnv.Updates | code/vanna_train.py:26-27 | The loop produces one update per line, in file order |
| DbEnv.ParseLines | code/run_vanna_api.py:19-55 | Every parsed value has its key's type: text for four keys, int-or-`None` for the port |
| DbEnv.PresentIffSomeLineSetsIt | code/vanna_train.py:26-66 | A key is in the config exactly when some line of the file, once stripped, starts with its prefix |
| DbEnv.LastLineWins | code/vanna_train.py:26-66 | When several lines set one key, the config holds the value of the last of them |
| DbEnv.KeyNameInjective | code/vanna_train.py:77-79 | Different keys are exported under different variable names |
| DbEnv.ExportEntry | code/vanna_train.py:78-86 | One export step changes only its own key's variable: text and numbers are written as `str()`, a `None` port removes `DB_PORT`, and a `None` of another key changes nothing |
| DbEnv.ExportKeys | code/run_vanna_api.py:66-74 | After the loop over some keys, variables that belong to none of those keys are left alone |
| DbEnv.ExportKeysAtKey | code/run_vanna_api.py:66-74 | After the loop, each key's variable is set by that key's own step only, so dict order does not matter |
| DbEnv.ExportKeysCheckedMeaning | code/vanna_train.py:77-80 | The export loop, writing each value in turn, stops exactly when one of its keys writes a value holding a NUL, and otherwise ends in the environment of the loop without the check |
| DbEnv.NoNulInIntToStr | code/vanna_train.py:79 | A port written with `str()` never holds a NUL |
| DbEnv.ExportToEnviron | code/vanna_train.py:77-80 | The export stops the script with `ValueError` exactly when some text setting holds a NUL character, whatever the dict order; ports never make it stop; otherwise it leaves the environment `Export` describes |
| DbEnv.Export | code/vanna_train.py:77-86 | Text values are written as is and port numbers as `str()`. A `None` port deletes `DB_PORT`, a `None` of any other key changes nothing, and unrelated variables are unchanged |
| DbEnv.ResolvePort | code/vanna_train.py:252-258 | The final port is present exactly when `DB_PORT` is set and `int()` accepts it, and it is then that integer |
| DbEnv.LoadDotenv | code/vanna_train.py:94-98 | `load_dotenv()` without override: a variable keeps its value when the environment has it, and otherwise takes the dotenv library's value from the file |
| DbEnv.Connect | code/vanna_train.py:247-276 | The connection goes ahead exactly when the four credentials are set and non-empty, and with exactly those values. `port` is present exactly when `DB_PORT` is set and parses, and it is then that integer |
| DbEnv.PortEndToEnd | code/vanna_train.py:77-98 | The script stops at the export exactly when a setting holds a NUL character. Otherwise, after the export and `load_dotenv()`, the port reaching the connection is the one the last `DB_PORT` line parsed to. An unparsable one is deleted and then decided by the dotenv library's own reading alone, and with no `DB_PORT` line the previous environment decides, then the dotenv library's value |
| DbEnv.CredentialsFromFile | code/run_vanna_api.py:66-83 | When the file sets all four credentials to non-empty text, the script stops at the export exactly when one of them holds a NUL character; otherwise the connection after the export and `load_dotenv()` uses exactly those values, whatever the environment or the dotenv library held |
| FakerIds.ReviewCounts | code/faker_data.py:11-13 | 50 reviews per tenant, 1000 in total |
| FakerIds.Block | code/faker_data.py:22 | A tenant's list holds `size` IDs, exactly those from the counter up to counter plus size minus one |
| FakerIds.StartStep | code/faker_data.py:24 | The next tenant's block starts right after this tenant's block |
| FakerIds.AllocateLocations | code/faker_data.py:17-24 | Tenant `t + 1` gets the contiguous block of its drawn size starting at the counter; each block has 1 to 5 IDs; the final counter is one past all blocks |
| FakerIds.StartMonotone | code/faker_data.py:18-24 | Block starts never decrease with the tenant index |
| FakerIds.BlocksDisjoint | code/faker_data.py:19-24 | Blocks of different tenants share no ID |
| FakerIds.BlocksCover | code/faker_data.py:18-24 | Every ID from 1 up to a tenant's start lies in some earlier tenant's block |
| FakerIds.AllocationPartitions | code/faker_data.py:18-24 | The blocks partition `1 .. counter - 1`: each ID in range belongs to exactly one tenant, and no block reaches outside |
| FakerIds.GenerateReviews | code/faker_data.py:27-69 | 1000 reviews. Comment IDs are `1..1000` in order, and tenant IDs go in runs of 50. Each location is the drawn element of the review's own tenant's block, and the text and date are the given inputs |
| FakerIds.GenerateDataset | code/faker_data.py:17-69 | Every review's location lies in its own tenant's ID range and below the final counter |
| FakerIds.RowsOfTenant | code/faker_data.py:31-35 | A tenant's rows are exactly the 50 consecutive rows starting at position `(tenant - 1) * 50` |
| FakerIds.LocationsNotShared | code/faker_data.py:19-38 | Reviews of different tenants never share a location ID |
| FakerIds.ToRow | code/faker_data.py:69 | A data row has the header's five fields, with the comment and date in the last two |
| FakerIds.ParseIdRoundTrip | code/faker_data.py:69 | An ID written with `str()` reads back with `int()` as the same ID |
| FakerIds.FromRow | code/faker_data.py:88-91 | The model's own reader of a written row (the script never reads its output back): it succeeds exactly on five fields whose first three read as IDs with `int()`, and gives those IDs and the last two fields |
| FakerIds.RowRoundTrip | code/faker_data.py:69-91 | Every written row determines its review: the model's reader, by header position, gives back the review it was written from |

## Left out

- The JSON grammar (RFC 8259) and the `ast.literal_eval` grammar. Both decoders are abstract partial functions, and the properties hold for any decoders.
- How pandas `apply(pd.Series)` expands a decoded value that is not a mapping. This is library behaviour that the scripts do not control, so it is the parameter `expand`.
- StructureParser.Structure: mapping keys are text. Python literal dicts with non-text keys (`{1: 'a'}`), which pandas keeps as non-text column labels distinct from `'1'`, are not modelled.
- The column order of `apply(pd.Series)`. It is taken to be first-seen key order, which is what the insertion-ordered set gives.
- CSV reading and writing:
  - quoting and escaping;
  - dtype and NaN inference. Cells are raw text, and an empty field is null;
  - file paths and `to_csv`.
- Debug `print` output in all scripts.
- Explode.ExplodeWith: kept cells are carried over as text. pandas would have re-typed numeric-looking cells on reading.
- Explode.DerivedCells: new cells hold the decoded values as they are. pandas upcasts an integer column that has missing values to float, and that conversion is not modelled.
- Explode.Reload: requires distinct column names. `read_csv` renames a repeated header (`name.1`), which is not modelled.
- `os.path.exists` and `open` are not modelled. The `.env` file is its list of lines. A missing file is an empty list.
- DbEnv.LoadDotenv: the dotenv library's own parser of the file (`find_dotenv` and its syntax) is not modelled. Its result is the parameter `dot`, which is empty when no file is found. A value there with a NUL character, which would make `load_dotenv()` raise as well, is not modelled.
- A read error part-way through the file stops the loop, with the lines read so far already applied. This is the same as parsing a shorter list.
- The environment is a plain string map rather than `os.environ`.
- PyNumbers.PyInt: only ASCII digits are accepted. Python's `int()` also accepts other Unicode decimal digits and rejects inputs over 4300 digits; neither is modelled.
- DbEnv.Connect: builds the connection parameters only. The connection itself and everything after it are not modelled.
- Qdrant, Vanna, OpenAI and Flask: the third-party network clients and the web server in `vanna_train.py` and `run_vanna_api.py`.
- `qdrant_vanna_upsert.py`.
- `upload_comments_to_postgres.py` and `upload_locations_to_postgres.py`. These are network database I/O. The code never calls `rollback`, so any all-or-nothing loading depends on the server and is not visible here.
- The random draws and the Faker data are inputs: `random.randint(1, 5)` is `sizes` and the index picked by `random.choice` is `picks`. The Faker comment text and the formatted dates are inputs too. The sentiment choice and `strftime` are not modelled.
- FakerIds.GenerateReviews: requires each pick to be a valid index into the tenant's block. `random.choice` guarantees this.


=== FILE: db_env.dfy ===
/** The hand-written `.env` reader that `vanna_train.py` and `run_vanna_api.py` both
    carry (the two copies differ only in comments and debug output): line parsing
    into a config dict, export of the config into the process environment, and the
    connection parameters built from that environment.

    The environment is a plain map. `load_dotenv()` is modelled by its effect on
    that map, with the dotenv library's own reading of the file as an input;
    reading the file and the database connection itself are not part of this
    model. */
module DbEnv {
  import opened Wrappers
  import Normalizer
  import opened PyNumbers

  /** The five settings the parser recognises. */
  datatype DbKey = Host | Name | User | Password | Port

  function KeyName(k: DbKey): string {
    match k
    case Host => "DB_HOST"
    case Name => "DB_NAME"
    case User => "DB_USER"
    case Password => "DB_PASSWORD"
    case Port => "DB_PORT"
  }

  /** The line prefix that selects a setting, e.g. `DB_HOST=`. */
  function Prefix(k: DbKey): string {
    KeyName(k) + "="
  }

  predicate StartsWith(s: string, p: string) {
    |p| <= |s| && s[..|p|] == p
  }

  predicate EndsWith(s: string, p: string) {
    |p| <= |s| && s[|s| - |p|..] == p
  }

  /** No line starts with two different prefixes. */
  lemma PrefixesDisjoint(line: string, k: DbKey, k': DbKey)
    requires StartsWith(line, Prefix(k)) && StartsWith(line, Prefix(k'))
    ensures k == k'
  {
    // The prefixes already differ at position 3 or 4.
    assert Prefix(k)[3] == line[3] == Prefix(k')[3];
    assert Prefix(k)[4] == line[4] == Prefix(k')[4];
  }

  /** The `if`/`elif` chain on prefixes: which setting, if any, a stripped line sets. */
  function MatchKey(line: string): (r: Option<DbKey>)
    ensures forall k :: r == Some(k) <==> StartsWith(line, Prefix(k))
  {
    var r :=
      if StartsWith(line, Prefix(Host)) then Some(Host)
      else if StartsWith(line, Prefix(Name)) then Some(Name)
      else if StartsWith(line, Prefix(User)) then Some(User)
      else if StartsWith(line, Prefix(Password)) then Some(Password)
      else if StartsWith(line, Prefix(Port)) then Some(Port)
      else None;
    assert forall k :: StartsWith(line, Prefix(k)) ==> r == Some(k) by {
      forall k | StartsWith(line, Prefix(k)) ensures r == Some(k) {
        if r.Some? {
          PrefixesDisjoint(line, k, r.value);
        }
      }
    }
    r
  }

  /** The position of the first `c` in `s`. */
  function IndexOf(s: string, c: char): (i: nat)
    requires c in s
    ensures i < |s| && s[i] == c && c !in s[..i]
  {
    if s[0] == c then 0
    else
      assert s[1..][..IndexOf(s[1..], c)] == s[1..1 + IndexOf(s[1..], c)];
      1 + IndexOf(s[1..], c)
  }

  /** `s.split(sep, 1)`: the text before the first `sep` and the text after it, or
      `[s]` when `sep` does not occur. */
  function SplitOnce(s: string, sep: char): (parts: seq<string>)
    ensures |parts| == 1 <==> sep !in s
    ensures |parts| == 1 ==> parts[0] == s
    ensures |parts| == 2 ==> s == parts[0] + [sep] + parts[1] && sep !in parts[0]
    ensures 1 <= |parts| <= 2
  {
    if sep in s then
      var i := IndexOf(s, sep);
      assert s == s[..i] + [sep] + s[i + 1..];
      [s[..i], s[i + 1..]]
    else [s]
  }

  /** On a matched line, `line.split('=', 1)[1]` cannot fail and is exactly the line
      without its prefix; any later `=` stays in the value. */
  lemma ValueIsRestOfLine(line: string, k: DbKey)
    requires StartsWith(line, Prefix(k))
    ensures SplitOnce(line, '=') == [KeyName(k), line[|Prefix(k)|..]]
  {
    var n := |KeyName(k)|;
    assert '=' !in KeyName(k);
    assert line[n] == '=';
    assert line[..n] == KeyName(k);
    assert '=' in line;
    var i := IndexOf(line, '=');
    assert i == n;
  }

  // ---------------------------------------------------------------------------
  // Quotes

  /** Which surrounding quotes a setting's value loses. */
  datatype QuoteRule = DoubleOnly | DoubleOrSingle

  /** `DB_HOST`, `DB_NAME` and `DB_USER` lose double quotes only; `DB_PASSWORD` and
      `DB_PORT` lose double or single quotes. */
  function RuleFor(k: DbKey): (rule: QuoteRule)
    ensures rule == DoubleOnly <==> k == Host || k == Name || k == User
  {
    match k
    case Password | Port => DoubleOrSingle
    case Host | Name | User => DoubleOnly
  }

  /** `v[1:-1]`, with Python's clamping: a one-character string gives `""`. */
  function Inner(v: string): (r: string)
    ensures |v| >= 2 ==> r == v[1..|v| - 1]
    ensures |v| < 2 ==> r == ""
  {
    if |v| < 2 then "" else v[1..|v| - 1]
  }

  predicate QuotedWith(v: string, q: char) {
    StartsWith(v, [q]) && EndsWith(v, [q])
  }

  /** `if v.startswith(q) and v.endswith(q): v = v[1:-1]`, for the quote characters
      the rule allows, double quotes first. */
  function Unquote(v: string, rule: QuoteRule): (r: string)
    ensures r == v || r == Inner(v)
    ensures r != v ==> QuotedWith(v, '"') || (rule == DoubleOrSingle && QuotedWith(v, '\''))
    ensures QuotedWith(v, '"') || (rule == DoubleOrSingle && QuotedWith(v, '\'')) ==> r == Inner(v)
  {
    if QuotedWith(v, '"') then Inner(v)
    else if rule == DoubleOrSingle && QuotedWith(v, '\'') then Inner(v)
    else v
  }

  /** Quoting with an accepted quote character and unquoting gives back the text. */
  lemma UnquoteQuoted(s: string, q: char, rule: QuoteRule)
    requires q == '"' || (q == '\'' && rule == DoubleOrSingle)
    ensures Unquote([q] + s + [q], rule) == s
  {
    var v := [q] + s + [q];
    assert v[..1] == [q] && v[|v| - 1..] == [q];
    assert v[1..|v| - 1] == s;
  }

  /** A value that does not start with a quote character is left as it is. */
  lemma UnquoteUnquoted(v: string, rule: QuoteRule)
    requires v != [] && v[0] != '"' && v[0] != '\''
    ensures Unquote(v, rule) == v
  {
    assert v[..1] == [v[0]];
  }

  /** Under the double-only rule a single-quoted value keeps its quotes. */
  lemma DoubleOnlyKeepsSingleQuotes(s: string)
    ensures Unquote("'" + s + "'", DoubleOnly) == "'" + s + "'"
  {
    var v := "'" + s + "'";
    assert v[0] == '\'';
    assert !StartsWith(v, "\"");
  }

  /** A lone quote character counts as both opening and closing, and becomes `""`. */
  lemma LoneQuoteBecomesEmpty(rule: QuoteRule)
    ensures Unquote("\"", rule) == ""
    ensures Unquote("'", DoubleOrSingle) == ""
    ensures Unquote("'", DoubleOnly) == "'"
  {
    var dq, sq := "\"", "'";
    assert dq[..1] == dq && dq[|dq| - 1..] == dq;
    assert sq[..1] == sq && sq[|sq| - 1..] == sq;
    assert !QuotedWith(sq, '"') by {
      assert sq[..1] != ['"'];
    }
  }

  // ---------------------------------------------------------------------------
  // Parsing lines into the config

  /** A config value: text for four of the settings; for `DB_PORT`, the parsed integer
      or Python `None` when the value did not parse. */
  datatype Setting = Text(text: string) | PortNumber(n: int) | PortNone

  /** `db_config`. */
  type Config = map<DbKey, Setting>

  /** The setting a matched line produces: the rest of the line after the first `=`,
      unquoted by the key's rule, and for the port converted with `int()`. */
  function LineSetting(k: DbKey, line: string): (s: Setting)
    requires StartsWith(line, Prefix(k))
    ensures k == Port <==> !s.Text?
    ensures k != Port ==> s == Text(Unquote(line[|Prefix(k)|..], RuleFor(k)))
    ensures k == Port ==> (s.PortNumber? <==> PyInt(Unquote(line[|Prefix(k)|..], DoubleOrSingle)).Some?)
    ensures s.PortNumber? ==> Some(s.n) == PyInt(Unquote(line[|Prefix(k)|..], DoubleOrSingle))
  {
    ValueIsRestOfLine(line, k);
    var value := Unquote(SplitOnce(line, '=')[1], RuleFor(k));
    if k != Port then Text(value)
    else
      match PyInt(value)
      case Some(n) => PortNumber(n)
      case None => PortNone
  }

  /** The setting, if any, that a raw line of the file sets once it is stripped. */
  function KeyOfLine(raw: string): Option<DbKey> {
    MatchKey(Normalizer.Strip(raw))
  }

  /** What one line of the file contributes: the key it sets and the new value. */
  type Update = Option<(DbKey, Setting)>

  /** One iteration of the loop over the file: strip the line, and if it starts with
      a known prefix, produce that key's new setting. */
  function LineUpdate(raw: string): (u: Update)
    ensures u.None? <==> KeyOfLine(raw).None?
    ensures u.Some? ==> KeyOfLine(raw) == Some(u.value.0)
    ensures u.Some? ==> (u.value.0 == Port <==> !u.value.1.Text?)
  {
    var line := Normalizer.Strip(raw);
    match MatchKey(line)
    case None => None
    case Some(k) => Some((k, LineSetting(k, line)))
  }

  /** The config after a sequence of updates, applied in order: later ones overwrite
      earlier ones. Every value present came from some update. */
  function ApplyAll(us: seq<Update>): (cfg: Config)
    ensures forall k :: k in cfg ==> exists i :: 0 <= i < |us| && us[i] == Some((k, cfg[k]))
  {
    if us == [] then map[]
    else
      var prev := ApplyAll(us[..|us| - 1]);
      assert forall i :: 0 <= i < |us| - 1 ==> us[..|us| - 1][i] == us[i];
      match us[|us| - 1]
      case None => prev
      case Some((k, v)) => prev[k := v]
  }

  /** A key is present exactly when some update sets it. */
  lemma {:induction false} ApplyAllPresent(us: seq<Update>, k: DbKey)
    ensures k in ApplyAll(us) <==> exists i :: 0 <= i < |us| && us[i].Some? && us[i].value.0 == k
  {
    if us != [] {
      var init := us[..|us| - 1];
      ApplyAllPresent(init, k);
      assert forall i :: 0 <= i < |init| ==> init[i] == us[i];
    }
  }

  /** `i` is the last update that sets `k`. */
  predicate LastUpdateFor(us: seq<Update>, k: DbKey, i: int) {
    0 <= i < |us| && us[i].Some? && us[i].value.0 == k &&
    forall j :: i < j < |us| ==> us[j].None? || us[j].value.0 != k
  }

  /** The last update of a key decides its value. */
  lemma {:induction false} ApplyAllLastWins(us: seq<Update>, k: DbKey, i: nat)
    requires LastUpdateFor(us, k, i)
    ensures k in ApplyAll(us) && ApplyAll(us)[k] == us[i].value.1
  {
    var init := us[..|us| - 1];
    if i < |init| {
      assert LastUpdateFor(init, k, i) by {
        assert forall j :: 0 <= j < |init| ==> init[j] == us[j];
      }
      ApplyAllLastWins(init, k, i);
    }
  }

  /** The updates of the lines of a file, in file order. */
  function Updates(lines: seq<string>): (us: seq<Update>)
    ensures |us| == |lines| && forall i :: 0 <= i < |lines| ==> us[i] == LineUpdate(lines[i])
  {
    seq(|lines|, i requires 0 <= i < |lines| => LineUpdate(lines[i]))
  }

  /** The whole file, line by line, as the loop over `f` does it. Every setting has
      the type its key calls for: an int-or-None for the port, text for the others. */
  function ParseLines(lines: seq<string>): (cfg: Config)
    ensures forall k :: k in cfg ==> (k == Port <==> !cfg[k].Text?)
  {
    var us := Updates(lines);
    var cfg := ApplyAll(us);
    assert forall k :: k in cfg ==> (k == Port <==> !cfg[k].Text?) by {
      forall k | k in cfg ensures k == Port <==> !cfg[k].Text? {
        var i :| 0 <= i < |us| && us[i] == Some((k, cfg[k]));
        assert us[i] == LineUpdate(lines[i]);
      }
    }
    cfg
  }

  /** Whitespace around a line of the file changes nothing: the line is stripped
      before the prefix test. */
  lemma LineUpdateIgnoresSurroundingSpace(a: string, raw: string, b: string)
    requires Normalizer.AllSpace(a) && Normalizer.AllSpace(b)
    ensures LineUpdate(a + raw + b) == LineUpdate(raw)
  {
    Normalizer.StripIgnoresSurroundingSpace(a, raw, b);
  }

  /** A `DB_PORT` line whose value is decimal digits, bare or in either kind of
      quotes, sets the port to that number. */
  lemma PortLineDigits(v: string, ds: string)
    requires ds != [] && AllDigits(ds)
    requires v == ds || v == "\"" + ds + "\"" || v == "'" + ds + "'"
    ensures LineUpdate(Prefix(Port) + v) == Some((Port, PortNumber(DecimalValue(ds))))
  {
    if v == ds {
      DigitNotSpace(ds[|ds| - 1]);
      UnquoteUnquoted(ds, DoubleOrSingle);
    } else {
      assert v == [v[0]] + ds + [v[0]];
      UnquoteQuoted(ds, v[0], DoubleOrSingle);
    }
    PortLine(v);
    PyIntOfDigits(ds);
  }

  /** An empty `DB_PORT` value, bare or as `""` or `''`, does not parse: the port
      becomes `None`. */
  lemma PortLineEmpty(v: string)
    requires v == "" || v == "\"\"" || v == "''"
    ensures LineUpdate(Prefix(Port) + v) == Some((Port, PortNone))
  {
    if v != "" {
      assert v == [v[0]] + "" + [v[0]];
      UnquoteQuoted("", v[0], DoubleOrSingle);
    }
    PortLine(v);
    assert Normalizer.Strip("") == "";
  }

  /** A line `DB_PORT=v` without surrounding whitespace sets the port from `v`. */
  lemma PortLine(v: string)
    requires v == [] || !Normalizer.IsSpace(v[|v| - 1])
    ensures LineUpdate(Prefix(Port) + v) == Some((Port, LineSetting(Port, Prefix(Port) + v)))
    ensures (Prefix(Port) + v)[|Prefix(Port)|..] == v
  {
    var line := Prefix(Port) + v;
    assert line[0] == 'D';
    assert line[|line| - 1] == if v == [] then '=' else v[|v| - 1];
    PyNumbers.StripKeepsNonSpaceEnds(line);
    assert line[..|Prefix(Port)|] == Prefix(Port);
    assert MatchKey(line) == Some(Port);
  }

  /** A setting is present exactly when some line of the file sets it. */
  lemma PresentIffSomeLineSetsIt(lines: seq<string>, k: DbKey)
    ensures k in ParseLines(lines) <==> exists i :: 0 <= i < |lines| && KeyOfLine(lines[i]) == Some(k)
  {
    var us := Updates(lines);
    ApplyAllPresent(us, k);
    if k in ParseLines(lines) {
      var i :| 0 <= i < |us| && us[i].Some? && us[i].value.0 == k;
      assert KeyOfLine(lines[i]) == Some(k);
    }
    if exists i :: 0 <= i < |lines| && KeyOfLine(lines[i]) == Some(k) {
      var i :| 0 <= i < |lines| && KeyOfLine(lines[i]) == Some(k);
      assert us[i].Some? && us[i].value.0 == k;
    }
  }

  /** `i` is the last line that sets `k`. */
  predicate LastLineFor(lines: seq<string>, k: DbKey, i: int) {
    0 <= i < |lines| && KeyOfLine(lines[i]) == Some(k) &&
    forall j :: i < j < |lines| ==> KeyOfLine(lines[j]) != Some(k)
  }

  /** When several lines set the same key, the last one wins. */
  lemma LastLineWins(lines: seq<string>, k: DbKey, i: nat)
    requires LastLineFor(lines, k, i)
    ensures k in ParseLines(lines)
    ensures ParseLines(lines)[k] == LineSetting(k, Normalizer.Strip(lines[i]))
  {
    var us := Updates(lines);
    assert LastUpdateFor(us, k, i) by {
      forall j | i < j < |us| ensures us[j].None? || us[j].value.0 != k {
        assert us[j] == LineUpdate(lines[j]);
      }
    }
    ApplyAllLastWins(us, k, i);
    assert us[i] == LineUpdate(lines[i]);
  }

  // ---------------------------------------------------------------------------
  // Export into the environment

  /** Distinct keys have distinct variable names. */
  lemma KeyNameInjective(k: DbKey, k': DbKey)
    requires KeyName(k) == KeyName(k')
    ensures k == k'
  {
    assert KeyName(k)[3] == KeyName(k')[3];
    assert KeyName(k)[4] == KeyName(k')[4];
  }

  lemma KeyNamesDiffer(k: DbKey, k': DbKey)
    requires k != k'
    ensures KeyName(k) != KeyName(k')
  {
    if KeyName(k) == KeyName(k') {
      KeyNameInjective(k, k');
    }
  }

  /** `os.environ.get(name)`. */
  function Get(env: map<string, string>, name: string): Option<string> {
    if name in env then Some(env[name]) else None
  }

  /** One step of the export loop: a value is written as `str(value)`; a `None` port
      removes `DB_PORT`; a `None` of any other key changes nothing. */
  function ExportEntry(env: map<string, string>, k: DbKey, s: Setting): (r: map<string, string>)
    ensures Get(r, KeyName(k)) == ExportedValue(k, s, Get(env, KeyName(k)))
    ensures forall name :: name != KeyName(k) ==> Get(r, name) == Get(env, name)
  {
    match s
    case Text(v) => env[KeyName(k) := v]
    case PortNumber(n) => env[KeyName(k) := IntToStr(n)]
    case PortNone => if k == Port then env - {KeyName(Port)} else env
  }

  /** All five keys, in the order of the parser's `if`/`elif` chain. */
  const AllKeys: seq<DbKey> := [Host, Name, User, Password, Port]

  /** The export loop over the keys in `keys`, in that order. */
  function ExportKeys(cfg: Config, keys: seq<DbKey>, env: map<string, string>): (r: map<string, string>)
    ensures forall name :: (forall k :: k in keys && k in cfg ==> name != KeyName(k)) ==> Get(r, name) == Get(env, name)
  {
    if keys == [] then env
    else
      var k := keys[|keys| - 1];
      var prev := ExportKeys(cfg, keys[..|keys| - 1], env);
      if k in cfg then ExportEntry(prev, k, cfg[k]) else prev
  }

  /** The variable of one key after its export step, given its value before. */
  function ExportedValue(k: DbKey, s: Setting, before: Option<string>): Option<string> {
    match s
    case Text(v) => Some(v)
    case PortNumber(n) => Some(IntToStr(n))
    case PortNone => if k == Port then None else before
  }

  /** A key's variable is set by its own step only. */
  lemma {:induction false} ExportKeysAtKey(cfg: Config, keys: seq<DbKey>, env: map<string, string>, k: DbKey)
    requires forall i, j :: 0 <= i < j < |keys| ==> keys[i] != keys[j]
    ensures Get(ExportKeys(cfg, keys, env), KeyName(k)) ==
      if k in keys && k in cfg then ExportedValue(k, cfg[k], Get(env, KeyName(k))) else Get(env, KeyName(k))
  {
    if keys != [] {
      var init, k' := keys[..|keys| - 1], keys[|keys| - 1];
      assert k in keys <==> k in init || k == k' by {
        assert keys == init + [k'];
      }
      assert k' !in init;
      ExportKeysAtKey(cfg, init, env, k);
      if k' != k {
        KeyNamesDiffer(k, k');
      }
    }
  }

  /** The export loop over `db_config`. Each key touches only its own variable, so
      the dict's iteration order does not matter. */
  function Export(cfg: Config, env: map<string, string>): (r: map<string, string>)
    ensures forall k :: k in cfg && cfg[k].Text? ==> Get(r, KeyName(k)) == Some(cfg[k].text)
    ensures forall k :: k in cfg && cfg[k].PortNumber? ==> Get(r, KeyName(k)) == Some(IntToStr(cfg[k].n))
    ensures Port in cfg && cfg[Port] == PortNone ==> Get(r, KeyName(Port)) == None
    ensures forall k :: k in cfg && k != Port && cfg[k] == PortNone ==> Get(r, KeyName(k)) == Get(env, KeyName(k))
    ensures forall name :: (forall k :: k in cfg ==> name != KeyName(k)) ==> Get(r, name) == Get(env, name)
  {
    var r := ExportKeys(cfg, AllKeys, env);
    forall k | k in cfg
      ensures Get(r, KeyName(k)) == ExportedValue(k, cfg[k], Get(env, KeyName(k)))
    {
      ExportKeysAtKey(cfg, AllKeys, env, k);
    }
    r
  }

  /** Why the export stops the script: `os.environ[key] = value` raises
      `ValueError` for a value with an embedded NUL character. */
  datatype ExportError = EmbeddedNul

  /** A text setting that the process environment cannot hold. */
  predicate HoldsNul(cfg: Config, k: DbKey) {
    k in cfg && cfg[k].Text? && '\0' in cfg[k].text
  }

  /** The text `os.environ[key] = str(value)` writes for a setting, or `None` when
      the loop writes nothing (`value is None`). */
  function Written(s: Setting): Option<string> {
    match s
    case Text(v) => Some(v)
    case PortNumber(n) => Some(IntToStr(n))
    case PortNone => None
  }

  /** The setting's write raises. */
  predicate WritesNul(s: Setting) {
    Written(s).Some? && '\0' in Written(s).value
  }

  /** The export loop as the script runs it, over the keys in `keys`: each step
      writes its value, and the first value with an embedded NUL raises, which
      nothing catches. */
  function ExportKeysChecked(cfg: Config, keys: seq<DbKey>, env: map<string, string>)
    : Result<map<string, string>, ExportError>
  {
    if keys == [] then Success(env)
    else
      match ExportKeysChecked(cfg, keys[..|keys| - 1], env)
      case Failure(e) => Failure(e)
      case Success(prev) =>
        var k := keys[|keys| - 1];
        if k !in cfg then Success(prev)
        else if WritesNul(cfg[k]) then Failure(EmbeddedNul)
        else Success(ExportEntry(prev, k, cfg[k]))
  }

  /** The loop stops exactly when one of its keys writes a NUL, and otherwise ends
      in the environment the unchecked loop gives. */
  lemma {:induction false} ExportKeysCheckedMeaning(cfg: Config, keys: seq<DbKey>, env: map<string, string>)
    ensures var r := ExportKeysChecked(cfg, keys, env);
      && (r.Failure? <==> exists k :: k in keys && k in cfg && WritesNul(cfg[k]))
      && (r.Success? ==> r.value == ExportKeys(cfg, keys, env))
  {
    if keys != [] {
      var init, k := keys[..|keys| - 1], keys[|keys| - 1];
      ExportKeysCheckedMeaning(cfg, init, env);
      assert keys == init + [k];
      assert forall j :: j in keys <==> j in init || j == k;
    }
  }

  lemma InAllKeys(k: DbKey)
    ensures k in AllKeys
  {
    match k
    case Host => assert AllKeys[0] == k;
    case Name => assert AllKeys[1] == k;
    case User => assert AllKeys[2] == k;
    case Password => assert AllKeys[3] == k;
    case Port => assert AllKeys[4] == k;
  }

  /** `str()` of an integer never holds a NUL: ports are written as digits. */
  lemma NoNulInIntToStr(n: int)
    ensures '\0' !in IntToStr(n)
  {
  }

  /** Only a text setting can make its write raise. */
  lemma WritesNulIffHoldsNul(cfg: Config, k: DbKey)
    requires k in cfg
    ensures WritesNul(cfg[k]) <==> HoldsNul(cfg, k)
  {
    if cfg[k].PortNumber? {
      NoNulInIntToStr(cfg[k].n);
    }
  }

  /** The export over `db_config` as the script runs it. It stops the script exactly
      when some text setting holds a NUL (ports are written as digits and never
      raise), before `load_dotenv()` and the connection; otherwise it leaves the
      environment `Export` describes, whatever the dict's order. */
  function ExportToEnviron(cfg: Config, env: map<string, string>): (r: Result<map<string, string>, ExportError>)
    ensures r.Failure? <==> exists k :: HoldsNul(cfg, k)
    ensures r.Success? ==> r.value == Export(cfg, env)
  {
    var r := ExportKeysChecked(cfg, AllKeys, env);
    ExportKeysCheckedMeaning(cfg, AllKeys, env);
    forall k | k in cfg ensures WritesNul(cfg[k]) <==> HoldsNul(cfg, k) {
      WritesNulIffHoldsNul(cfg, k);
    }
    forall k ensures k in AllKeys {
      InAllKeys(k);
    }
    r
  }

  // ---------------------------------------------------------------------------
  // Connection parameters

  /** The port as re-read from the environment: `int(os.getenv('DB_PORT'))`, or
      `None` when the variable is unset or does not parse. */
  function ResolvePort(env: map<string, string>): (r: Option<int>)
    ensures r.Some? <==> KeyName(Port) in env && PyInt(env[KeyName(Port)]).Some?
    ensures r.Some? ==> r == PyInt(env[KeyName(Port)])
  {
    match Get(env, KeyName(Port))
    case Some(v) => PyInt(v)
    case None => None
  }

  /** `load_dotenv()` with its default `override=False`: every variable the dotenv
      library reads from the file (`dot`) is set unless the environment already has
      it. The library's own file syntax is not modelled; `dot` is its result, and is
      empty when `find_dotenv()` finds no file. */
  function LoadDotenv(env: map<string, string>, dot: map<string, string>): (r: map<string, string>)
    ensures forall name :: Get(r, name) == if name in env then Get(env, name) else Get(dot, name)
  {
    dot + env
  }

  /** The environment the connection reads: the manual parse, its export, then
      `load_dotenv()`; or the error that stopped the export. */
  function StartupEnv(lines: seq<string>, env: map<string, string>, dot: map<string, string>)
    : Result<map<string, string>, ExportError>
  {
    match ExportToEnviron(ParseLines(lines), env)
    case Success(env') => Success(LoadDotenv(env', dot))
    case Failure(e) => Failure(e)
  }

  /** Python truthiness of `os.getenv(name)`: set and non-empty. */
  predicate Truthy(env: map<string, string>, name: string) {
    name in env && env[name] != ""
  }

  datatype ConnectionParams = ConnectionParams(
    host: string, dbname: string, user: string, password: string, port: Option<int>)

  /** `exit(1)` when a credential is missing. */
  datatype ConnectError = MissingCredentials

  /** The keyword arguments for the database connection, or the early exit. */
  function Connect(env: map<string, string>): (r: Result<ConnectionParams, ConnectError>)
    ensures r.Success? <==> forall k :: k in {Host, Name, User, Password} ==> Truthy(env, KeyName(k))
    ensures r.Success? ==>
      && r.value.host == env[KeyName(Host)] && r.value.dbname == env[KeyName(Name)]
      && r.value.user == env[KeyName(User)] && r.value.password == env[KeyName(Password)]
    ensures r.Success? ==>
      (r.value.port.Some? <==> KeyName(Port) in env && PyInt(env[KeyName(Port)]).Some?)
    ensures r.Success? && r.value.port.Some? ==> r.value.port == PyInt(env[KeyName(Port)])
  {
    var port := ResolvePort(env);
    if !(Truthy(env, KeyName(Host)) && Truthy(env, KeyName(Name)) && Truthy(env, KeyName(User))
         && Truthy(env, KeyName(Password))) then
      Failure(MissingCredentials)
    else
      Success(ConnectionParams(env[KeyName(Host)], env[KeyName(Name)], env[KeyName(User)],
                               env[KeyName(Password)], port))
  }

  /** From `.env` to connection: the port passed to the connection is the one the
      last `DB_PORT` line parsed to. When that line does not parse, the export
      deletes `DB_PORT` and `load_dotenv()` puts back whatever the dotenv library
      read for it; with no `DB_PORT` line the earlier environment decides, and
      failing that the dotenv library's value. A credential with an embedded NUL
      stops the script before any of this. */
  lemma PortEndToEnd(lines: seq<string>, env: map<string, string>, dot: map<string, string>)
    ensures StartupEnv(lines, env, dot).Failure? <==> exists k :: HoldsNul(ParseLines(lines), k)
    ensures var cfg := ParseLines(lines);
      var r := StartupEnv(lines, env, dot);
      r.Success? ==>
      && (Port in cfg && cfg[Port].PortNumber? ==> ResolvePort(r.value) == Some(cfg[Port].n))
      && (Port in cfg && cfg[Port] == PortNone ==> ResolvePort(r.value) == ResolvePort(dot))
      && (Port !in cfg ==> ResolvePort(r.value) == ResolvePort(LoadDotenv(env, dot)))
  {
    var cfg := ParseLines(lines);
    var env' := Export(cfg, env);
    var final := LoadDotenv(env', dot);
    assert StartupEnv(lines, env, dot).Success? ==> StartupEnv(lines, env, dot).value == final;
    var name := KeyName(Port);
    assert Get(final, name) == if name in env' then Get(env', name) else Get(dot, name);
    assert Get(LoadDotenv(env, dot), name) == if name in env then Get(env, name) else Get(dot, name);
    if Port in cfg && cfg[Port].PortNumber? {
      IntRoundTrip(cfg[Port].n);
    }
    if Port !in cfg {
      forall k | k in cfg ensures name != KeyName(k) {
        if name == KeyName(k) {
          KeyNameInjective(Port, k);
        }
      }
      assert Get(env', name) == Get(env, name);
    }
  }

  /** With all four credentials set as text, only they can hold a NUL: the port is
      never text. */
  lemma NulInCredentials(cfg: Config)
    requires forall k :: k in cfg ==> (k == Port <==> !cfg[k].Text?)
    requires Host in cfg && Name in cfg && User in cfg && Password in cfg
    ensures (exists k :: HoldsNul(cfg, k)) <==>
      '\0' in cfg[Host].text || '\0' in cfg[Name].text || '\0' in cfg[User].text || '\0' in cfg[Password].text
  {
    if exists k :: HoldsNul(cfg, k) {
      var k :| HoldsNul(cfg, k);
      assert k != Port;
    }
    assert HoldsNul(cfg, Host) || HoldsNul(cfg, Name) || HoldsNul(cfg, User) || HoldsNul(cfg, Password)
      ==> exists k :: HoldsNul(cfg, k);
  }

  /** Credentials the export wrote survive `load_dotenv()` and reach the connection. */
  lemma CredentialsReachConnect(cfg: Config, env: map<string, string>, dot: map<string, string>)
    requires forall k :: k in {Host, Name, User, Password} ==> k in cfg && cfg[k].Text? && cfg[k] != Text("")
    ensures var r := Connect(LoadDotenv(Export(cfg, env), dot));
      && r.Success?
      && r.value.host == cfg[Host].text && r.value.dbname == cfg[Name].text
      && r.value.user == cfg[User].text && r.value.password == cfg[Password].text
  {
    var env' := Export(cfg, env);
    var final := LoadDotenv(env', dot);
    forall k | k in {Host, Name, User, Password}
      ensures Truthy(final, KeyName(k)) && final[KeyName(k)] == cfg[k].text
    {
      assert Get(env', KeyName(k)) == Some(cfg[k].text);
      assert Get(final, KeyName(k)) == Get(env', KeyName(k));
    }
  }

  /** From `.env` to connection: when the file sets all four credentials to
      non-empty text, the script stops at the export exactly when one of them holds
      a NUL character, and otherwise the connection goes ahead with exactly those
      values, whatever the environment or the dotenv library held before. */
  lemma CredentialsFromFile(lines: seq<string>, env: map<string, string>, dot: map<string, string>)
    requires var cfg := ParseLines(lines);
      forall k :: k in {Host, Name, User, Password} ==> k in cfg && cfg[k] != Text("")
    ensures var cfg := ParseLines(lines);
      StartupEnv(lines, env, dot).Failure? <==>
        '\0' in cfg[Host].text || '\0' in cfg[Name].text || '\0' in cfg[User].text || '\0' in cfg[Password].text
    ensures var cfg := ParseLines(lines);
      var s := StartupEnv(lines, env, dot);
      s.Success? ==>
      var r := Connect(s.value);
      && r.Success?
      && r.value.host == cfg[Host].text && r.value.dbname == cfg[Name].text
      && r.value.user == cfg[User].text && r.value.password == cfg[Password].text
  {
    var cfg := ParseLines(lines);
    NulInCredentials(cfg);
    var r := ExportToEnviron(cfg, env);
    if r.Success? {
      CredentialsReachConnect(cfg, env, dot);
      assert StartupEnv(lines, env, dot) == Success(LoadDotenv(Export(cfg, env), dot));
    }
  }
}

=== FILE: explode.dfy ===
/** The table merger shared by the three explode scripts: parse the `address` column
    row by row, flatten it, drop `address`, and append the new columns
    (`pd.concat([df.drop(columns=['address']), address_df], axis=1)`).

    A table is a pandas DataFrame as read from CSV: distinct column names and rows
    of raw text cells, `None` for an empty field. */
module Explode {
  import opened Wrappers
  import opened StructureParser
  import Flattener
  import Normalizer

  datatype Table<C> = Table(columns: seq<string>, rows: seq<seq<C>>)

  /** Every row has one cell per column. */
  predicate Rectangular<C>(t: Table<C>) {
    forall i :: 0 <= i < |t.rows| ==> |t.rows[i]| == |t.columns|
  }

  /** What `pd.read_csv` hands over: a rectangle whose column names are distinct. */
  predicate WellFormed<C>(t: Table<C>) {
    Rectangular(t) && Flattener.Distinct(t.columns)
  }

  /** A cell of the exploded table: a null marker, a text cell carried over from the
      input, or a value taken from a decoded mapping. */
  datatype Cell<V> = Null | Text(text: string) | Value(value: V)

  /** The column every script parses and drops. */
  const AddressColumn := "address"

  /** Why a script stops: `df['address']` on a table without that column raises
      `KeyError`; `pd.read_csv` on a file with no columns to parse raises
      `EmptyDataError`. */
  datatype ExplodeError = KeyError(column: string) | EmptyDataError

  function FromRaw<V>(c: Option<string>): Cell<V> {
    match c
    case None => Null
    case Some(s) => Text(s)
  }

  function FromField<V>(c: Option<V>): Cell<V> {
    match c
    case None => Null
    case Some(v) => Value(v)
  }

  /** `xs` without its element at position `k`. */
  function RemoveAt<T>(xs: seq<T>, k: nat): (r: seq<T>)
    requires k < |xs|
    ensures |r| == |xs| - 1
    ensures forall c :: 0 <= c < k ==> r[c] == xs[c]
    ensures forall c :: k <= c < |r| ==> r[c] == xs[c + 1]
  {
    xs[..k] + xs[k + 1..]
  }

  /** A decoded value as a mapping. A non-mapping value is expanded by `expand`,
      which stands for the table library's own rule and is not fixed here. */
  function AsStructure<V>(p: Parsed<V>, expand: V -> Structure<V>): Structure<V> {
    match p
    case Mapping(fields) => fields
    case NonMapping(v) => expand(v)
  }

  /** The decoded mapping of every row's blob in column `k`. */
  function Structures<V>(t: Table<Option<string>>, k: nat, parse: Option<string> -> Parsed<V>,
                         expand: V -> Structure<V>): (ss: seq<Structure<V>>)
    requires Rectangular(t) && k < |t.columns|
    ensures |ss| == |t.rows|
    ensures forall i :: 0 <= i < |t.rows| ==> ss[i] == AsStructure(parse(t.rows[i][k]), expand)
  {
    seq(|t.rows|, i requires 0 <= i < |t.rows| => AsStructure(parse(t.rows[i][k]), expand))
  }

  /** Parse, flatten and merge: the non-`address` columns in their original order,
      then one column per decoded key in first-seen order. */
  function ExplodeWith<V>(t: Table<Option<string>>, parse: Option<string> -> Parsed<V>,
                          expand: V -> Structure<V>): (r: Result<Table<Cell<V>>, ExplodeError>)
    requires WellFormed(t)
    ensures r.Failure? <==> AddressColumn !in t.columns
    ensures r.Failure? ==> r.error == KeyError(AddressColumn)
    ensures r.Success? ==>
      var k := Flattener.FirstIndex(t.columns, AddressColumn);
      var ss := Structures(t, k, parse, expand);
      var schema := Flattener.Schema(ss);
      var n := |t.columns| - 1;
      && r.value.columns == RemoveAt(t.columns, k) + DerivedColumns(schema, |t.rows|)
      && AddressColumn !in RemoveAt(t.columns, k)
      && |r.value.rows| == |t.rows|
      && Rectangular(r.value)
      && (forall i, c :: 0 <= i < |t.rows| && 0 <= c < n ==>
            r.value.rows[i][c] == FromRaw(RemoveAt(t.rows[i], k)[c]))
      && (forall i, j :: 0 <= i < |t.rows| && 0 <= j < |schema| ==>
            r.value.rows[i][n + j] == FromField(Flattener.Flatten(ss).rows[i][j]))
  {
    if AddressColumn !in t.columns then Failure(KeyError(AddressColumn))
    else
      var k := Flattener.FirstIndex(t.columns, AddressColumn);
      var ss := Structures(t, k, parse, expand);
      var flat := Flattener.Flatten(ss);
      AddressDropped(t, k);
      MergedCells(t, k, flat);
      Success(Merged(t, k, flat))
  }

  /** The columns `address_df` contributes: one per decoded key. On a table without
      rows, `Series.apply` returns the empty `address` Series itself, name included,
      and `pd.concat` turns it into one empty column named `address`. */
  function DerivedColumns(schema: seq<string>, n: nat): (cols: seq<string>)
    ensures n > 0 ==> cols == schema
    ensures n == 0 ==> cols == [AddressColumn]
  {
    if n == 0 then [AddressColumn] else schema
  }

  /** `pd.concat([df.drop(columns=['address']), address_df], axis=1)`: each row's
      cells without column `k`, then the row's flattened fragment. */
  function Merged<V>(t: Table<Option<string>>, k: nat, flat: Flattener.Flat<V>): (m: Table<Cell<V>>)
    requires Rectangular(t) && k < |t.columns| && Fits(flat, |t.rows|)
    ensures m.columns == RemoveAt(t.columns, k) + DerivedColumns(flat.schema, |t.rows|)
    ensures |m.rows| == |t.rows|
    ensures forall i :: 0 <= i < |m.rows| ==> |m.rows[i]| == |t.columns| - 1 + |flat.schema|
    ensures Rectangular(m)
  {
    Table(RemoveAt(t.columns, k) + DerivedColumns(flat.schema, |t.rows|),
          seq(|t.rows|, i requires 0 <= i < |t.rows| => MergeRow(RemoveAt(t.rows[i], k), flat.rows[i])))
  }

  /** A flattened column with `n` rows, each as wide as the schema. */
  predicate Fits<V>(flat: Flattener.Flat<V>, n: nat) {
    |flat.rows| == n && forall i :: 0 <= i < n ==> |flat.rows[i]| == |flat.schema|
  }

  /** With distinct column names, dropping the `address` column removes every
      occurrence of the name. */
  lemma AddressDropped<C>(t: Table<C>, k: nat)
    requires WellFormed(t) && k < |t.columns| && t.columns[k] == AddressColumn
    ensures AddressColumn !in RemoveAt(t.columns, k)
  {
    var kept := RemoveAt(t.columns, k);
    forall c | 0 <= c < |kept| ensures kept[c] != AddressColumn {
      if c >= k {
        assert t.columns[c + 1] != t.columns[k];
      }
    }
  }

  /** Row `i` of the merged table, cell by cell. */
  lemma MergedRow<V>(t: Table<Option<string>>, k: nat, flat: Flattener.Flat<V>, i: nat)
    requires Rectangular(t) && k < |t.columns| && Fits(flat, |t.rows|) && i < |t.rows|
    ensures var row := Merged(t, k, flat).rows[i];
      var n := |t.columns| - 1;
      && |row| == n + |flat.schema|
      && (forall c :: 0 <= c < n ==> row[c] == FromRaw(RemoveAt(t.rows[i], k)[c]))
      && (forall j :: 0 <= j < |flat.schema| ==> row[n + j] == FromField(flat.rows[i][j]))
  {
  }

  lemma MergedCells<V>(t: Table<Option<string>>, k: nat, flat: Flattener.Flat<V>)
    requires Rectangular(t) && k < |t.columns| && Fits(flat, |t.rows|)
    ensures |Merged(t, k, flat).rows| == |t.rows|
    ensures forall i :: 0 <= i < |t.rows| ==>
      var row := Merged(t, k, flat).rows[i];
      var n := |t.columns| - 1;
      && |row| == n + |flat.schema|
      && (forall c :: 0 <= c < n ==> row[c] == FromRaw(RemoveAt(t.rows[i], k)[c]))
      && (forall j :: 0 <= j < |flat.schema| ==> row[n + j] == FromField(flat.rows[i][j]))
  {
    forall i | 0 <= i < |t.rows| {
      MergedRow(t, k, flat, i);
    }
  }

  /** One output row: the kept input cells, then the row's flattened fragment. */
  function MergeRow<V>(kept: seq<Option<string>>, fragment: seq<Option<V>>): (row: seq<Cell<V>>)
    ensures |row| == |kept| + |fragment|
    ensures forall c :: 0 <= c < |kept| ==> row[c] == FromRaw(kept[c])
    ensures forall j :: 0 <= j < |fragment| ==> row[|kept| + j] == FromField(fragment[j])
  {
    seq(|kept|, c requires 0 <= c < |kept| => FromRaw(kept[c]))
      + seq(|fragment|, j requires 0 <= j < |fragment| => FromField(fragment[j]))
  }

  /** An address-derived cell is null exactly when the row's mapping lacks that
      column's key, and otherwise holds the mapping's value for it. */
  lemma DerivedCells<V>(t: Table<Option<string>>, parse: Option<string> -> Parsed<V>,
                        expand: V -> Structure<V>, i: nat, j: nat)
    requires WellFormed(t) && AddressColumn in t.columns && i < |t.rows|
    requires j < |Flattener.Schema(Structures(t, AddressIndex(t), parse, expand))|
    ensures var ss := Structures(t, AddressIndex(t), parse, expand);
      var key := Flattener.Schema(ss)[j];
      var cell := ExplodeWith(t, parse, expand).value.rows[i][|t.columns| - 1 + j];
      && (cell == Null <==> key !in Flattener.KeysOf(ss[i]))
      && (cell.Value? ==> (key, cell.value) in ss[i])
  {
  }

  /** The position of the `address` column. */
  function AddressIndex<C>(t: Table<C>): (k: nat)
    requires AddressColumn in t.columns
    ensures k < |t.columns| && t.columns[k] == AddressColumn
  {
    Flattener.FirstIndex(t.columns, AddressColumn)
  }

  /** A row whose blob parses to `{}` is kept: its input cells are carried over and
      every address-derived cell is null. */
  lemma EmptyBlobRowIsKept<V>(t: Table<Option<string>>, parse: Option<string> -> Parsed<V>,
                              expand: V -> Structure<V>, i: nat)
    requires WellFormed(t) && AddressColumn in t.columns && i < |t.rows|
    requires parse(t.rows[i][AddressIndex(t)]) == EmptyStructure()
    ensures var out := ExplodeWith(t, parse, expand).value;
      var n := |t.columns| - 1;
      && out.rows[i][..n] == seq(n, c requires 0 <= c < n => FromRaw(RemoveAt(t.rows[i], AddressIndex(t))[c]))
      && forall c :: n <= c < |out.rows[i]| ==> out.rows[i][c] == Null
  {
    var out := ExplodeWith(t, parse, expand).value;
    var n := |t.columns| - 1;
    var ss := Structures(t, AddressIndex(t), parse, expand);
    assert Flattener.KeysOf(ss[i]) == [];
    forall c | n <= c < |out.rows[i]|
      ensures out.rows[i][c] == Null
    {
      assert out.rows[i][n + (c - n)] == Null;
    }
  }

  // ---------------------------------------------------------------------------
  // The three scripts

  /** `explode_address.py`: clean, then JSON, then Python literal, then `{}`. */
  function ExplodeAddress<V>(t: Table<Option<string>>, json: Decoder<V>, literal: Decoder<V>,
                             expand: V -> Structure<V>): (r: Result<Table<Cell<V>>, ExplodeError>)
    requires WellFormed(t)
    ensures r.Failure? <==> AddressColumn !in t.columns
    ensures r.Success? ==> |r.value.rows| == |t.rows| && Rectangular(r.value)
    ensures r.Success? ==> (r.value.columns ==
      RemoveAt(t.columns, AddressIndex(t))
        + DerivedColumns(Flattener.Schema(Structures(t, AddressIndex(t), a => ParseTolerant(json, literal, a), expand)), |t.rows|))
  {
    ExplodeWith(t, a => ParseTolerant(json, literal, a), expand)
  }

  /** In `explode_address.py` a row whose blob is null, or defeats both decoders
      after cleaning, keeps its other cells and gets null in every new column. */
  lemma ExplodeAddressKeepsUnparsedRows<V>(t: Table<Option<string>>, json: Decoder<V>, literal: Decoder<V>,
                                           expand: V -> Structure<V>, i: nat)
    requires WellFormed(t) && AddressColumn in t.columns && i < |t.rows|
    requires var blob := t.rows[i][AddressIndex(t)];
      blob.None? || (json(Normalizer.Clean(blob.value)).None? && literal(Normalizer.Clean(blob.value)).None?)
    ensures var out := ExplodeAddress(t, json, literal, expand).value;
      forall c :: |t.columns| - 1 <= c < |out.rows[i]| ==> out.rows[i][c] == Null
  {
    EmptyBlobRowIsKept(t, a => ParseTolerant(json, literal, a), expand, i);
  }

  /** `locations_expansion.py`: the raw text to JSON, or `{}`. */
  function LocationsExpansion<V>(t: Table<Option<string>>, json: Decoder<V>,
                                 expand: V -> Structure<V>): (r: Result<Table<Cell<V>>, ExplodeError>)
    requires WellFormed(t)
    ensures r.Failure? <==> AddressColumn !in t.columns
    ensures r.Success? ==> |r.value.rows| == |t.rows| && Rectangular(r.value)
    ensures r.Success? ==> (r.value.columns ==
      RemoveAt(t.columns, AddressIndex(t))
        + DerivedColumns(Flattener.Schema(Structures(t, AddressIndex(t), a => ParseJsonOnly(json, a), expand)), |t.rows|))
  {
    ExplodeWith(t, a => ParseJsonOnly(json, a), expand)
  }

  /** In `locations_expansion.py` a row whose blob is null or not JSON as written
      keeps its other cells and gets null in every new column. */
  lemma LocationsKeepsUnparsedRows<V>(t: Table<Option<string>>, json: Decoder<V>,
                                      expand: V -> Structure<V>, i: nat)
    requires WellFormed(t) && AddressColumn in t.columns && i < |t.rows|
    requires var blob := t.rows[i][AddressIndex(t)];
      blob.None? || json(blob.value).None?
    ensures var out := LocationsExpansion(t, json, expand).value;
      forall c :: |t.columns| - 1 <= c < |out.rows[i]| ==> out.rows[i][c] == Null
  {
    EmptyBlobRowIsKept(t, a => ParseJsonOnly(json, a), expand, i);
  }

  /** `explode_address_final.py`: blank gives `{}`, otherwise the raw text to the
      Python-literal decoder, or `{}`. */
  function ExplodeAddressFinal<V>(t: Table<Option<string>>, literal: Decoder<V>,
                                  expand: V -> Structure<V>): (r: Result<Table<Cell<V>>, ExplodeError>)
    requires WellFormed(t)
    ensures r.Failure? <==> AddressColumn !in t.columns
    ensures r.Success? ==> |r.value.rows| == |t.rows| && Rectangular(r.value)
    ensures r.Success? ==> (r.value.columns ==
      RemoveAt(t.columns, AddressIndex(t))
        + DerivedColumns(Flattener.Schema(Structures(t, AddressIndex(t), a => ParseLiteralOnly(literal, a), expand)), |t.rows|))
  {
    ExplodeWith(t, a => ParseLiteralOnly(literal, a), expand)
  }

  /** In `explode_address_final.py` a row whose blob is null, blank, or not a Python
      literal keeps its other cells and gets null in every new column. */
  lemma FinalKeepsUnparsedRows<V>(t: Table<Option<string>>, literal: Decoder<V>,
                                  expand: V -> Structure<V>, i: nat)
    requires WellFormed(t) && AddressColumn in t.columns && i < |t.rows|
    requires var blob := t.rows[i][AddressIndex(t)];
      blob.None? || Normalizer.AllSpace(blob.value) || literal(blob.value).None?
    ensures var out := ExplodeAddressFinal(t, literal, expand).value;
      forall c :: |t.columns| - 1 <= c < |out.rows[i]| ==> out.rows[i][c] == Null
  {
    EmptyBlobRowIsKept(t, a => ParseLiteralOnly(literal, a), expand, i);
  }

  /** Writing an exploded table to CSV and reading it back; how a cell is rendered
      and re-read is the CSV library's business and is a parameter here. A table
      with no columns is written as blank lines only, and `pd.read_csv` then finds
      no columns to parse. Otherwise the header comes back as written when its names
      are distinct; `read_csv` would rename a repeated name (`name.1`), which is
      outside this model. */
  function Reload<V>(out: Table<Cell<V>>, roundTrip: Cell<V> -> Option<string>)
    : (r: Result<Table<Option<string>>, ExplodeError>)
    requires Flattener.Distinct(out.columns)
    ensures r.Failure? <==> out.columns == []
    ensures r.Failure? ==> r.error == EmptyDataError
    ensures r.Success? ==> r.value.columns == out.columns && |r.value.rows| == |out.rows|
    ensures r.Success? && Rectangular(out) ==> WellFormed(r.value)
  {
    if out.columns == [] then Failure(EmptyDataError)
    else
      Success(Table(out.columns, seq(|out.rows|, i requires 0 <= i < |out.rows| =>
        seq(|out.rows[i]|, c requires 0 <= c < |out.rows[i]| => roundTrip(out.rows[i][c])))))
  }

  /** `explode_address_final.py` run on a written table: read it back, then explode
      its `address` column with the Python-literal decoder. */
  function FinalPass<V>(out: Table<Cell<V>>, roundTrip: Cell<V> -> Option<string>,
                        literal: Decoder<V>, expand: V -> Structure<V>): Result<Table<Cell<V>>, ExplodeError>
    requires WellFormed(out)
  {
    match Reload(out, roundTrip)
    case Failure(e) => Failure(e)
    case Success(next) => ExplodeAddressFinal(next, literal, expand)
  }

  /** `explode_address_final.py` reads the first pass's output, which has lost its
      `address` column; it finds one again only if some decoded blob had a key named
      `address`, or if there were no rows (then the empty `address` column survives),
      and otherwise stops: with `EmptyDataError` when no column at all is left (the
      input had only `address` and every blob decoded to an empty mapping), and with
      `KeyError` otherwise. */
  lemma FinalPassNeedsNestedAddressKey<V>(t: Table<Option<string>>, parse: Option<string> -> Parsed<V>,
                                          expand: V -> Structure<V>, roundTrip: Cell<V> -> Option<string>,
                                          literal: Decoder<V>)
    requires WellFormed(t) && AddressColumn in t.columns
    requires Flattener.Distinct(ExplodeWith(t, parse, expand).value.columns)
    ensures var out := ExplodeWith(t, parse, expand).value;
      var schema := Flattener.Schema(Structures(t, AddressIndex(t), parse, expand));
      var r := FinalPass(out, roundTrip, literal, expand);
      && (r.Failure? <==> |t.rows| > 0 && AddressColumn !in schema)
      && (r.Failure? ==> (r.error == EmptyDataError <==> |t.columns| == 1 && schema == []))
      && (r.Failure? && r.error != EmptyDataError ==> r.error == KeyError(AddressColumn))
  {
  }
}

=== FILE: faker_ids.dfy ===
/** The identifier scheme of the synthetic review generator in `faker_data.py`:
    per-tenant blocks of location IDs, sequential comment IDs, and the five-field
    CSV row. The random draws (block sizes, location picks) and the Faker text and
    dates are inputs. */
module FakerIds {
  import opened Wrappers
  import PyNumbers

  const NumTenants: nat := 20
  const ReviewsPerTenant: nat := 1000 / NumTenants
  const TotalReviews: nat := NumTenants * ReviewsPerTenant

  /** Fewest and most locations a tenant can receive. */
  const MinLocations: nat := 1
  const MaxLocations: nat := 5

  lemma ReviewCounts()
    ensures ReviewsPerTenant == 50 && TotalReviews == 1000
  {
  }

  // ---------------------------------------------------------------------------
  // Location blocks

  function Sum(s: seq<nat>): nat {
    if s == [] then 0 else Sum(s[..|s| - 1]) + s[|s| - 1]
  }

  /** The first location ID of tenant index `t` (tenant ID `t + 1`): one past all
      IDs handed out before it. */
  function Start(sizes: seq<nat>, t: nat): nat
    requires t <= |sizes|
  {
    1 + Sum(sizes[..t])
  }

  lemma StartStep(sizes: seq<nat>, t: nat)
    requires t < |sizes|
    ensures Start(sizes, t + 1) == Start(sizes, t) + sizes[t]
  {
    assert sizes[..t + 1][..t] == sizes[..t];
  }

  /** `[location_counter + j for j in range(num_locations)]`. */
  function Block(start: nat, size: nat): (b: seq<nat>)
    ensures |b| == size
    ensures forall x :: x in b <==> start <= x < start + size
  {
    var b := seq(size, j requires 0 <= j < size => start + j);
    forall x | start <= x < start + size
      ensures x in b
    {
      assert b[x - start] == x;
    }
    b
  }

  predicate ValidSizes(sizes: seq<nat>) {
    forall t :: 0 <= t < |sizes| ==> MinLocations <= sizes[t] <= MaxLocations
  }

  /** The allocation loop: tenant `t + 1` receives `sizes[t]` consecutive IDs from
      the counter, and the counter then advances past them. `sizes` are the draws of
      `random.randint(1, 5)`. */
  method AllocateLocations(sizes: seq<nat>) returns (blocks: seq<seq<nat>>, counter: nat)
    requires |sizes| == NumTenants && ValidSizes(sizes)
    ensures |blocks| == NumTenants
    ensures forall t :: 0 <= t < |blocks| ==> blocks[t] == Block(Start(sizes, t), sizes[t])
    ensures forall t :: 0 <= t < |blocks| ==> MinLocations <= |blocks[t]| <= MaxLocations
    ensures counter == Start(sizes, |sizes|)
  {
    blocks := [];
    counter := 1;
    for t := 0 to |sizes|
      invariant |blocks| == t
      invariant counter == Start(sizes, t)
      invariant forall u :: 0 <= u < t ==> blocks[u] == Block(Start(sizes, u), sizes[u])
    {
      StartStep(sizes, t);
      blocks := blocks + [Block(counter, sizes[t])];
      counter := counter + sizes[t];
    }
  }

  /** Starts grow with the tenant index. */
  lemma {:induction false} StartMonotone(sizes: seq<nat>, t: nat, u: nat)
    requires t <= u <= |sizes|
    ensures Start(sizes, t) <= Start(sizes, u)
    decreases u - t
  {
    if t < u {
      StartStep(sizes, t);
      StartMonotone(sizes, t + 1, u);
    }
  }

  /** Blocks of different tenants share no ID. */
  lemma BlocksDisjoint(sizes: seq<nat>, t: nat, u: nat, x: nat)
    requires t < u < |sizes|
    requires x in Block(Start(sizes, t), sizes[t])
    ensures x !in Block(Start(sizes, u), sizes[u])
  {
    StartStep(sizes, t);
    StartMonotone(sizes, t + 1, u);
  }

  /** Every ID below the counter lies in some tenant's block: no gaps. */
  lemma {:induction false} BlocksCover(sizes: seq<nat>, n: nat, x: nat)
    requires n <= |sizes| && 1 <= x < Start(sizes, n)
    ensures exists t :: 0 <= t < n && x in Block(Start(sizes, t), sizes[t])
  {
    assert n > 0 by {
      assert sizes[..0] == [];
    }
    StartStep(sizes, n - 1);
    if x < Start(sizes, n - 1) {
      BlocksCover(sizes, n - 1, x);
    } else {
      assert x in Block(Start(sizes, n - 1), sizes[n - 1]);
    }
  }

  /** The allocation partitions `1 .. counter - 1`: each ID in range belongs to
      exactly one tenant, and no tenant holds an ID outside it. */
  lemma AllocationPartitions(sizes: seq<nat>, x: nat)
    requires ValidSizes(sizes)
    ensures 1 <= x < Start(sizes, |sizes|) ==>
      exists t :: 0 <= t < |sizes| && x in Block(Start(sizes, t), sizes[t])
    ensures forall t, u :: 0 <= t < u < |sizes| && x in Block(Start(sizes, t), sizes[t]) ==>
      x !in Block(Start(sizes, u), sizes[u])
    ensures forall t :: 0 <= t < |sizes| && x in Block(Start(sizes, t), sizes[t]) ==>
      1 <= x < Start(sizes, |sizes|)
  {
    if 1 <= x < Start(sizes, |sizes|) {
      BlocksCover(sizes, |sizes|, x);
    }
    forall t, u | 0 <= t < u < |sizes| && x in Block(Start(sizes, t), sizes[t])
      ensures x !in Block(Start(sizes, u), sizes[u])
    {
      BlocksDisjoint(sizes, t, u, x);
    }
    forall t | 0 <= t < |sizes| && x in Block(Start(sizes, t), sizes[t])
      ensures 1 <= x < Start(sizes, |sizes|)
    {
      StartStep(sizes, t);
      StartMonotone(sizes, 0, t);
      StartMonotone(sizes, t + 1, |sizes|);
    }
  }

  // ---------------------------------------------------------------------------
  // Reviews

  /** One entry of `data`: `[comment_id, tenant_id, location_id, comment, created_date]`. */
  datatype Review = Review(commentId: nat, tenantId: nat, locationId: nat, comment: string, createdDate: string)

  /** Position `t * ReviewsPerTenant + j` of the generated data belongs to tenant index `t`. */
  lemma TenantOfPosition(t: nat, j: nat)
    requires j < ReviewsPerTenant
    ensures (t * ReviewsPerTenant + j) / ReviewsPerTenant == t
  {
  }

  /** The generation loop: for each tenant in order, `reviews_per_tenant` reviews with
      the next comment ID and a location from that tenant's block. `picks[k]` is the
      index `random.choice` draws for the `k`-th review; `comments` and `dates` are
      the Faker text and the formatted dates. */
  method GenerateReviews(blocks: seq<seq<nat>>, picks: seq<nat>, comments: seq<string>, dates: seq<string>)
    returns (data: seq<Review>)
    requires |blocks| == NumTenants
    requires |picks| == |comments| == |dates| == TotalReviews
    requires forall k :: 0 <= k < TotalReviews ==> picks[k] < |blocks[k / ReviewsPerTenant]|
    ensures |data| == TotalReviews
    ensures forall k :: 0 <= k < |data| ==> data[k].commentId == k + 1
    ensures forall k :: 0 <= k < |data| ==> data[k].tenantId == k / ReviewsPerTenant + 1
    ensures forall k :: 0 <= k < |data| ==> data[k].locationId in blocks[data[k].tenantId - 1]
    ensures forall k :: 0 <= k < |data| ==> data[k].locationId == blocks[k / ReviewsPerTenant][picks[k]]
    ensures forall k :: 0 <= k < |data| ==> data[k].comment == comments[k] && data[k].createdDate == dates[k]
  {
    data := [];
    var commentId: nat := 1;
    for t := 0 to NumTenants
      invariant |data| == t * ReviewsPerTenant
      invariant commentId == |data| + 1
      invariant forall k :: 0 <= k < |data| ==> Generated(data, k, blocks, picks, comments, dates)
    {
      for j := 0 to ReviewsPerTenant
        invariant |data| == t * ReviewsPerTenant + j
        invariant commentId == |data| + 1
        invariant forall k :: 0 <= k < |data| ==> Generated(data, k, blocks, picks, comments, dates)
      {
        var k := |data|;
        TenantOfPosition(t, j);
        assert k < TotalReviews;
        var location := blocks[t][picks[k]];
        var prev := data;
        data := data + [Review(commentId, t + 1, location, comments[k], dates[k])];
        commentId := commentId + 1;
        forall i | 0 <= i < |data|
          ensures Generated(data, i, blocks, picks, comments, dates)
        {
          if i < k {
            assert data[i] == prev[i];
            assert Generated(prev, i, blocks, picks, comments, dates);
          }
        }
      }
    }
    forall k | 0 <= k < |data|
      ensures data[k].commentId == k + 1 && data[k].tenantId == k / ReviewsPerTenant + 1
      ensures data[k].locationId == blocks[k / ReviewsPerTenant][picks[k]]
      ensures data[k].comment == comments[k] && data[k].createdDate == dates[k]
    {
      assert Generated(data, k, blocks, picks, comments, dates);
    }
  }

  /** Row `k` of `data` is what the loop builds for the `k`-th review. */
  predicate Generated(data: seq<Review>, k: nat, blocks: seq<seq<nat>>, picks: seq<nat>,
                      comments: seq<string>, dates: seq<string>)
  {
    && k < |data| && k < |picks| && k < |comments| && k < |dates|
    && k / ReviewsPerTenant < |blocks| && picks[k] < |blocks[k / ReviewsPerTenant]|
    && var r := data[k];
    && r.commentId == k + 1
    && r.tenantId == k / ReviewsPerTenant + 1
    && r.locationId == blocks[k / ReviewsPerTenant][picks[k]]
    && r.comment == comments[k] && r.createdDate == dates[k]
  }

  /** The whole script up to the CSV: allocation, then generation. Every review's
      location lies in its own tenant's ID range, and all of them below the final
      counter. */
  method GenerateDataset(sizes: seq<nat>, picks: seq<nat>, comments: seq<string>, dates: seq<string>)
    returns (data: seq<Review>, counter: nat)
    requires |sizes| == NumTenants && ValidSizes(sizes)
    requires |picks| == |comments| == |dates| == TotalReviews
    requires forall k :: 0 <= k < TotalReviews ==> picks[k] < sizes[k / ReviewsPerTenant]
    ensures |data| == TotalReviews
    ensures forall k :: 0 <= k < |data| ==> data[k].commentId == k + 1
    ensures forall k :: 0 <= k < |data| ==> data[k].tenantId == k / ReviewsPerTenant + 1
    ensures forall k :: 0 <= k < |data| ==>
      Start(sizes, k / ReviewsPerTenant) <= data[k].locationId < Start(sizes, k / ReviewsPerTenant + 1)
    ensures forall k :: 0 <= k < |data| ==> 1 <= data[k].locationId < counter
  {
    var blocks;
    blocks, counter := AllocateLocations(sizes);
    data := GenerateReviews(blocks, picks, comments, dates);
    forall k | 0 <= k < |data|
      ensures Start(sizes, k / ReviewsPerTenant) <= data[k].locationId < Start(sizes, k / ReviewsPerTenant + 1)
      ensures 1 <= data[k].locationId < counter
    {
      var t := k / ReviewsPerTenant;
      assert data[k].locationId in Block(Start(sizes, t), sizes[t]);
      StartStep(sizes, t);
      StartMonotone(sizes, 0, t);
      StartMonotone(sizes, t + 1, |sizes|);
    }
  }

  /** The rows of tenant `tenant` are exactly the `ReviewsPerTenant` consecutive rows
      starting at position `(tenant - 1) * ReviewsPerTenant`. */
  lemma RowsOfTenant(data: seq<Review>, tenant: nat, k: nat)
    requires k < |data| && data[k].tenantId == k / ReviewsPerTenant + 1
    ensures data[k].tenantId == tenant <==>
      1 <= tenant && (tenant - 1) * ReviewsPerTenant <= k < tenant * ReviewsPerTenant
  {
  }

  /** Reviews of different tenants never share a location: with the allocation's
      blocks, each location ID names one tenant's location. */
  lemma LocationsNotShared(sizes: seq<nat>, blocks: seq<seq<nat>>, data: seq<Review>, k: nat, k': nat)
    requires |sizes| == |blocks| && forall t :: 0 <= t < |blocks| ==> blocks[t] == Block(Start(sizes, t), sizes[t])
    requires k < |data| && k' < |data|
    requires 1 <= data[k].tenantId <= |blocks| && 1 <= data[k'].tenantId <= |blocks|
    requires data[k].locationId in blocks[data[k].tenantId - 1]
    requires data[k'].locationId in blocks[data[k'].tenantId - 1]
    requires data[k].tenantId != data[k'].tenantId
    ensures data[k].locationId != data[k'].locationId
  {
    var t, u := data[k].tenantId - 1, data[k'].tenantId - 1;
    if data[k].locationId == data[k'].locationId {
      if t < u {
        BlocksDisjoint(sizes, t, u, data[k].locationId);
      } else {
        BlocksDisjoint(sizes, u, t, data[k].locationId);
      }
    }
  }

  // ---------------------------------------------------------------------------
  // CSV rows

  /** The header row. */
  const Header: seq<string> := ["comment_id", "tenant_id", "location_id", "comment", "created_date"]

  /** The fields the CSV writer receives for one review, in header order; integers
      are written as `str()` of their value. */
  function ToRow(r: Review): (row: seq<string>)
    ensures |row| == |Header|
    ensures row[3] == r.comment && row[4] == r.createdDate
  {
    [PyNumbers.IntToStr(r.commentId), PyNumbers.IntToStr(r.tenantId), PyNumbers.IntToStr(r.locationId),
     r.comment, r.createdDate]
  }

  /** An ID field read back with `int()`: a non-negative integer, or nothing. */
  function ParseId(field: string): Option<nat> {
    match PyNumbers.PyInt(field)
    case Some(n) => if n >= 0 then Some(n) else None
    case None => None
  }

  lemma ParseIdRoundTrip(n: nat)
    ensures ParseId(PyNumbers.IntToStr(n)) == Some(n)
  {
    PyNumbers.IntRoundTrip(n);
  }

  /** A reader of the written rows, by header position, with the three ID fields
      through `int()`. The generator itself never reads its output back; this reader
      belongs to the model and states what a written row determines. */
  function FromRow(row: seq<string>): (r: Option<Review>)
    ensures r.Some? <==>
      |row| == |Header| && ParseId(row[0]).Some? && ParseId(row[1]).Some? && ParseId(row[2]).Some?
    ensures r.Some? ==>
      r.value == Review(ParseId(row[0]).value, ParseId(row[1]).value, ParseId(row[2]).value, row[3], row[4])
  {
    if |row| != |Header| then None
    else
      match (ParseId(row[0]), ParseId(row[1]), ParseId(row[2]))
      case (Some(c), Some(t), Some(l)) => Some(Review(c, t, l, row[3], row[4]))
      case _ => None
  }

  /** A row whose three ID fields read back as IDs gives the review with those IDs
      and the remaining two fields as they stand. */
  lemma FromRowOfIds(row: seq<string>, c: nat, t: nat, l: nat)
    requires |row| == |Header|
    requires ParseId(row[0]) == Some(c) && ParseId(row[1]) == Some(t) && ParseId(row[2]) == Some(l)
    ensures FromRow(row) == Some(Review(c, t, l, row[3], row[4]))
  {
  }

  /** Every written row determines its review: read back by the model's reader,
      it gives the review it was written from. */
  lemma RowRoundTrip(r: Review)
    ensures FromRow(ToRow(r)) == Some(r)
  {
    var row := ToRow(r);
    IdFieldsRoundTrip(r, row);
    FromRowOfIds(row, r.commentId, r.tenantId, r.locationId);
  }

  lemma IdFieldsRoundTrip(r: Review, row: seq<string>)
    requires row == ToRow(r)
    ensures ParseId(row[0]) == Some(r.commentId)
    ensures ParseId(row[1]) == Some(r.tenantId)
    ensures ParseId(row[2]) == Some(r.locationId)
  {
    assert row[0] == PyNumbers.IntToStr(r.commentId);
    assert row[1] == PyNumbers.IntToStr(r.tenantId);
    assert row[2] == PyNumbers.IntToStr(r.locationId);
    ParseIdRoundTrip(r.commentId);
    ParseIdRoundTrip(r.tenantId);
    ParseIdRoundTrip(r.locationId);
  }
}

=== FILE: flattener.dfy ===
/** The column flattener behind `.apply(pd.Series)` in all three explode scripts:
    a column of decoded mappings becomes a rectangle whose columns are the union of
    the keys, in first-seen order, with a null marker wherever a row lacks a key. */
module Flattener {
  import opened Wrappers
  import opened StructureParser

  predicate Distinct(xs: seq<string>) {
    forall i, j :: 0 <= i < j < |xs| ==> xs[i] != xs[j]
  }

  /** The keys of a mapping, in insertion order. */
  function KeysOf<V>(s: Structure<V>): (ks: seq<string>)
    ensures |ks| == |s| && Distinct(ks)
    ensures forall i :: 0 <= i < |s| ==> ks[i] == s[i].0
  {
    seq(|s|, i requires 0 <= i < |s| => s[i].0)
  }

  /** `d.get(k)`: the value stored under `k`, if any. */
  function Lookup<V>(s: Structure<V>, k: string): (r: Option<V>)
    ensures r.Some? <==> k in KeysOf(s)
    ensures r.Some? ==> (k, r.value) in s
    ensures forall i :: 0 <= i < |s| && s[i].0 == k ==> r == Some(s[i].1)
  {
    if s == [] then None
    else if s[0].0 == k then Some(s[0].1)
    else
      var rest: Structure<V> := s[1..];
      assert KeysOf(s) == [s[0].0] + KeysOf(rest);
      Lookup(rest, k)
  }

  /** Every key of every row, row after row. */
  function AllKeys<V>(ss: seq<Structure<V>>): (ks: seq<string>)
    ensures forall k :: k in ks <==> exists i :: 0 <= i < |ss| && k in KeysOf(ss[i])
  {
    if ss == [] then []
    else
      var init := ss[..|ss| - 1];
      assert forall i :: 0 <= i < |init| ==> init[i] == ss[i];
      AllKeys(init) + KeysOf(ss[|ss| - 1])
  }

  /** An insertion-ordered set built from `xs`: each element at its first occurrence. */
  function Dedup(xs: seq<string>): (r: seq<string>)
    ensures forall x :: x in r <==> x in xs
    ensures Distinct(r)
  {
    if xs == [] then []
    else
      var init := Dedup(xs[..|xs| - 1]);
      var x := xs[|xs| - 1];
      assert forall y :: y in xs <==> y in xs[..|xs| - 1] || y == x by {
        assert xs == xs[..|xs| - 1] + [x];
      }
      if x in init then init else init + [x]
  }

  /** The position of the first occurrence of `x` in `xs`. */
  function FirstIndex(xs: seq<string>, x: string): (n: nat)
    requires x in xs
    ensures n < |xs| && xs[n] == x && x !in xs[..n]
  {
    if xs[0] == x then 0
    else
      assert xs[1..][..FirstIndex(xs[1..], x)] == xs[1..1 + FirstIndex(xs[1..], x)];
      1 + FirstIndex(xs[1..], x)
  }

  /** The column schema: every key seen in any row, once, in first-seen order. */
  function Schema<V>(ss: seq<Structure<V>>): (schema: seq<string>)
    ensures Distinct(schema)
    ensures forall k :: k in schema <==> exists i :: 0 <= i < |ss| && k in KeysOf(ss[i])
  {
    Dedup(AllKeys(ss))
  }

  lemma FirstIndexExtend(xs: seq<string>, x: string, y: string)
    requires y in xs
    ensures FirstIndex(xs + [x], y) == FirstIndex(xs, y)
  {
    var b := FirstIndex(xs, y);
    assert (xs + [x])[b] == y;
    assert (xs + [x])[..b] == xs[..b];
  }

  /** The elements of `r` occur in `xs`, and `r` lists them in the order of their
      first occurrence in `xs`. */
  predicate InFirstSeenOrder(xs: seq<string>, r: seq<string>) {
    && (forall k :: 0 <= k < |r| ==> r[k] in xs)
    && (forall i, j :: 0 <= i < j < |r| ==> FirstIndex(xs, r[i]) < FirstIndex(xs, r[j]))
  }

  /** Keys appear in the schema in the order of their first occurrence. */
  lemma {:induction false} DedupKeepsFirstOccurrenceOrder(xs: seq<string>)
    ensures InFirstSeenOrder(xs, Dedup(xs))
  {
    if xs != [] {
      var p, x := xs[..|xs| - 1], xs[|xs| - 1];
      assert xs == p + [x];
      DedupKeepsFirstOccurrenceOrder(p);
      var q, r := Dedup(p), Dedup(xs);
      forall y | y in q
        ensures FirstIndex(xs, y) == FirstIndex(p, y)
      {
        FirstIndexExtend(p, x, y);
      }
      if x !in q {
        assert r == q + [x];
        assert FirstIndex(xs, x) == |p| by {
          assert xs[..|p|] == p;
        }
        forall i, j | 0 <= i < j < |r|
          ensures FirstIndex(xs, r[i]) < FirstIndex(xs, r[j])
        {
          assert r[i] == q[i];
          if j == |q| {
            assert FirstIndex(p, q[i]) < |p|;
          } else {
            assert r[j] == q[j];
            assert FirstIndex(p, q[i]) < FirstIndex(p, q[j]);
          }
        }
      } else {
        assert r == q;
      }
    }
  }

  /** The schema's order is the order in which a row-by-row scan first meets each key. */
  lemma SchemaFirstSeenOrder<V>(ss: seq<Structure<V>>)
    ensures InFirstSeenOrder(AllKeys(ss), Schema(ss))
  {
    DedupKeepsFirstOccurrenceOrder(AllKeys(ss));
  }

  lemma DedupSnoc(xs: seq<string>, x: string)
    ensures Dedup(xs + [x]) == if x in Dedup(xs) then Dedup(xs) else Dedup(xs) + [x]
  {
    assert (xs + [x])[..|xs|] == xs;
  }

  lemma AllKeysSnoc<V>(ss: seq<Structure<V>>, i: nat)
    requires i < |ss|
    ensures AllKeys(ss[..i + 1]) == AllKeys(ss[..i]) + KeysOf(ss[i])
  {
    assert ss[..i + 1][..i] == ss[..i];
  }

  /** The insertion-ordered set of the elements of `xs`: the list `schema` and its
      membership index `seen`. */
  ghost predicate OrderedSetOf(xs: seq<string>, schema: seq<string>, seen: set<string>) {
    schema == Dedup(xs) && forall x :: x in seen <==> x in schema
  }

  /** Add one key to the insertion-ordered set. */
  method AddKey(xs: seq<string>, x: string, schema0: seq<string>, seen0: set<string>)
    returns (schema: seq<string>, seen: set<string>)
    requires OrderedSetOf(xs, schema0, seen0)
    ensures OrderedSetOf(xs + [x], schema, seen)
  {
    DedupSnoc(xs, x);
    schema, seen := schema0, seen0;
    if x !in seen {
      schema := schema + [x];
      seen := seen + {x};
    }
  }

  /** Add one row's keys to the insertion-ordered set. */
  method AddKeys(done: seq<string>, keys: seq<string>, schema0: seq<string>, seen0: set<string>)
    returns (schema: seq<string>, seen: set<string>)
    requires OrderedSetOf(done, schema0, seen0)
    ensures OrderedSetOf(done + keys, schema, seen)
  {
    schema, seen := schema0, seen0;
    assert done + keys[..0] == done;
    for j := 0 to |keys|
      invariant OrderedSetOf(done + keys[..j], schema, seen)
    {
      assert done + keys[..j + 1] == (done + keys[..j]) + [keys[j]];
      schema, seen := AddKey(done + keys[..j], keys[j], schema, seen);
    }
    assert keys[..|keys|] == keys;
  }

  /** The first pass of the two-pass algorithm: accumulate keys into an insertion-
      ordered set while scanning every row. */
  method ComputeSchema<V>(ss: seq<Structure<V>>) returns (schema: seq<string>)
    ensures schema == Schema(ss)
    ensures Distinct(schema)
  {
    schema := [];
    var seen: set<string> := {};
    for i := 0 to |ss|
      invariant OrderedSetOf(AllKeys(ss[..i]), schema, seen)
    {
      AllKeysSnoc(ss, i);
      schema, seen := AddKeys(AllKeys(ss[..i]), KeysOf(ss[i]), schema, seen);
    }
    assert ss[..|ss|] == ss;
  }

  /** One row reindexed onto the schema: the row's value for each schema key, or the
      null marker where the row lacks the key. */
  function Fragment<V>(s: Structure<V>, schema: seq<string>): (cells: seq<Option<V>>)
    ensures |cells| == |schema|
    ensures forall j :: 0 <= j < |schema| ==> (cells[j].None? <==> schema[j] !in KeysOf(s))
    ensures forall j :: 0 <= j < |schema| && cells[j].Some? ==> (schema[j], cells[j].value) in s
  {
    seq(|schema|, j requires 0 <= j < |schema| => Lookup(s, schema[j]))
  }

  /** The flattened column: its schema and one fragment per row. */
  datatype Flat<V> = Flat(schema: seq<string>, rows: seq<seq<Option<V>>>)

  /** Flattening a batch: the schema, then every row reindexed onto it. */
  function Flatten<V>(ss: seq<Structure<V>>): (f: Flat<V>)
    ensures Distinct(f.schema)
    ensures forall k :: k in f.schema <==> exists i :: 0 <= i < |ss| && k in KeysOf(ss[i])
    ensures |f.rows| == |ss|
    ensures forall i :: 0 <= i < |ss| ==> |f.rows[i]| == |f.schema|
    ensures forall i, j :: 0 <= i < |ss| && 0 <= j < |f.schema| ==>
      (f.rows[i][j].None? <==> f.schema[j] !in KeysOf(ss[i]))
    ensures forall i, j :: 0 <= i < |ss| && 0 <= j < |f.schema| && f.rows[i][j].Some? ==>
      (f.schema[j], f.rows[i][j].value) in ss[i]
  {
    var schema := Schema(ss);
    Flat(schema, seq(|ss|, i requires 0 <= i < |ss| => Fragment(ss[i], schema)))
  }

  /** Nothing is dropped or misaligned: every key/value pair of every row appears in
      that row, under the column named by its key. */
  lemma FlattenLossless<V>(ss: seq<Structure<V>>, i: nat, k: string, v: V)
    requires i < |ss| && (k, v) in ss[i]
    ensures var f := Flatten(ss);
      exists j :: 0 <= j < |f.schema| && f.schema[j] == k && f.rows[i][j] == Some(v)
  {
    var n :| 0 <= n < |ss[i]| && ss[i][n] == (k, v);
    assert Lookup(ss[i], k) == Some(v);
    assert KeysOf(ss[i])[n] == k;
    var schema := Schema(ss);
    assert k in schema;
    var j := FirstIndex(schema, k);
    assert Flatten(ss).rows[i] == Fragment(ss[i], schema);
  }

  lemma {:induction false} DedupOfDistinct(xs: seq<string>)
    requires Distinct(xs)
    ensures Dedup(xs) == xs
  {
    if xs != [] {
      var p := xs[..|xs| - 1];
      DedupOfDistinct(p);
    }
  }

  lemma {:induction false} DedupAbsorbs(xs: seq<string>, ys: seq<string>)
    requires forall y :: y in ys ==> y in xs
    ensures Dedup(xs + ys) == Dedup(xs)
    decreases |ys|
  {
    if ys != [] {
      var p := ys[..|ys| - 1];
      assert (xs + ys)[..|xs + ys| - 1] == xs + p;
      DedupAbsorbs(xs, p);
    } else {
      assert xs + ys == xs;
    }
  }

  lemma {:induction false} AllKeysShared<V>(ss: seq<Structure<V>>, ks: seq<string>)
    requires ss != [] && forall i :: 0 <= i < |ss| ==> KeysOf(ss[i]) == ks
    ensures Dedup(AllKeys(ss)) == Dedup(ks)
  {
    if |ss| > 1 {
      var init := ss[..|ss| - 1];
      AllKeysShared(init, ks);
      DedupAbsorbs(AllKeys(init), ks);
    } else {
      assert ss[..0] == [];
      assert AllKeys(ss) == AllKeys(ss[..0]) + ks;
      assert [] + ks == ks;
    }
  }

  /** Round trip: when every row has the same keys in the same order, flattening
      gives exactly that key list as columns and each row's values in that order. */
  lemma SharedKeysRoundTrip<V>(ss: seq<Structure<V>>, ks: seq<string>)
    requires ss != [] && forall i :: 0 <= i < |ss| ==> KeysOf(ss[i]) == ks
    ensures Flatten(ss).schema == ks
    ensures forall i, j :: 0 <= i < |ss| && 0 <= j < |ks| ==> Flatten(ss).rows[i][j] == Some(ss[i][j].1)
  {
    AllKeysShared(ss, ks);
    DedupOfDistinct(KeysOf(ss[0]));
    var f := Flatten(ss);
    forall i, j | 0 <= i < |ss| && 0 <= j < |ks|
      ensures f.rows[i][j] == Some(ss[i][j].1)
    {
      assert ss[i][j].0 == ks[j];
      assert f.rows[i][j] == Lookup(ss[i], ks[j]);
    }
  }
}

=== FILE: normalizer.dfy ===
/** The blob normalizer `clean_address` of `explode_address.py`, and the Python
    whitespace primitives (`str.strip`, the regular expression class `\s`) it is
    built from. Both `str.strip()` and `\s` on a `str` pattern use the same Unicode
    whitespace test, so one predicate `IsSpace` serves both. */
module Normalizer {
  import opened Wrappers

  /** Python's Unicode whitespace: the characters for which `str.isspace()` holds. */
  predicate IsSpace(c: char) {
    if c <= ' ' then c == ' ' || '\t' <= c <= '\r' || '\U{1C}' <= c <= '\U{1F}'
    else if c < '\U{85}' then false
    else
      || c == '\U{85}' || c == '\U{A0}' || c == '\U{1680}' || '\U{2000}' <= c <= '\U{200A}'
      || c == '\U{2028}' || c == '\U{2029}' || c == '\U{202F}' || c == '\U{205F}' || c == '\U{3000}'
  }

  predicate AllSpace(s: string) {
    forall i :: 0 <= i < |s| ==> IsSpace(s[i])
  }

  predicate NoSpace(s: string) {
    forall i :: 0 <= i < |s| ==> !IsSpace(s[i])
  }

  /** `s.lstrip()`: the longest suffix of `s` that does not start with whitespace. */
  function LStrip(s: string): (r: string)
    ensures |r| <= |s| && r == s[|s| - |r|..]
    ensures AllSpace(s[..|s| - |r|])
    ensures r == [] || !IsSpace(r[0])
    decreases |s|
  {
    if s != [] && IsSpace(s[0]) then
      var r := LStrip(s[1..]);
      LStripStep(s, r);
      r
    else s
  }

  lemma LStripStep(s: string, r: string)
    requires s != [] && IsSpace(s[0])
    requires |r| <= |s| - 1 && r == s[1..][|s| - 1 - |r|..] && AllSpace(s[1..][..|s| - 1 - |r|])
    ensures r == s[|s| - |r|..] && AllSpace(s[..|s| - |r|])
  {
    assert s[..|s| - |r|] == [s[0]] + s[1..][..|s| - 1 - |r|];
  }

  /** `s.rstrip()`: the longest prefix of `s` that does not end with whitespace. */
  function RStrip(s: string): (r: string)
    ensures |r| <= |s| && r == s[..|r|]
    ensures AllSpace(s[|r|..])
    ensures r == [] || !IsSpace(r[|r| - 1])
    decreases |s|
  {
    if s != [] && IsSpace(s[|s| - 1]) then
      var r := RStrip(s[..|s| - 1]);
      RStripStep(s, r);
      r
    else s
  }

  lemma RStripStep(s: string, r: string)
    requires s != [] && IsSpace(s[|s| - 1])
    requires |r| <= |s| - 1 && r == s[..|s| - 1][..|r|] && AllSpace(s[..|s| - 1][|r|..])
    ensures r == s[..|r|] && AllSpace(s[|r|..])
  {
    assert s[|r|..] == s[..|s| - 1][|r|..] + [s[|s| - 1]];
  }

  /** `s.strip()`: whitespace removed from both ends. */
  function Strip(s: string): (r: string)
    ensures r == [] || (!IsSpace(r[0]) && !IsSpace(r[|r| - 1]))
    ensures r == [] <==> AllSpace(s)
  {
    var l := LStrip(s);
    var r := RStrip(l);
    StripWitness(s, l, r, |s| - |l|);
    r
  }

  /** `str.strip()` only cuts whitespace, and only from the two ends: the result
      is a slice of the input with nothing but whitespace on either side. */
  lemma StripTrims(s: string)
    ensures exists i :: TrimmedAt(s, Strip(s), i)
  {
    var l := LStrip(s);
    var r := RStrip(l);
    assert Strip(s) == r;
    StripWitness(s, l, r, |s| - |l|);
    assert TrimmedAt(s, Strip(s), |s| - |l|);
  }

  /** `r` is `s` with only whitespace cut away before position `i` and after `r`. */
  predicate TrimmedAt(s: string, r: string, i: int) {
    0 <= i <= |s| - |r| && s[i..i + |r|] == r && AllSpace(s[..i]) && AllSpace(s[i + |r|..])
  }

  lemma StripWitness(s: string, l: string, r: string, i: nat)
    requires i == |s| - |l| && |l| <= |s| && l == s[i..] && AllSpace(s[..i])
    requires |r| <= |l| && r == l[..|r|] && AllSpace(l[|r|..])
    requires l == [] || !IsSpace(l[0])
    requires r == [] || !IsSpace(r[|r| - 1])
    ensures TrimmedAt(s, r, i)
    ensures r == [] || (!IsSpace(r[0]) && !IsSpace(r[|r| - 1]))
    ensures r == [] <==> AllSpace(s)
  {
    assert s[i + |r|..] == l[|r|..];
    if r == [] {
      assert s == s[..i] + s[i..];
    } else {
      assert r[0] == l[0] == s[i];
    }
  }

  /** `re.sub(r'\s+', ' ', s)`: every maximal run of whitespace becomes one space. */
  function Collapse(s: string): string
    decreases |s|
  {
    if s == [] then []
    else if IsSpace(s[0]) then " " + Collapse(LStrip(s))
    else [s[0]] + Collapse(s[1..])
  }

  /** What the substitution leaves: single spaces only, never two whitespace
      characters in a row, empty exactly for empty input, and whitespace at either
      end exactly where the input had it. */
  lemma {:induction false} CollapseShape(s: string)
    ensures var r := Collapse(s);
      && SingleSpaced(r)
      && (r == [] <==> s == [])
      && (s != [] ==> (IsSpace(r[0]) <==> IsSpace(s[0])))
      && (s != [] ==> (IsSpace(r[|r| - 1]) <==> IsSpace(s[|s| - 1])))
    decreases |s|
  {
    if s != [] {
      if IsSpace(s[0]) {
        var rest := LStrip(s);
        var r := Collapse(rest);
        assert Collapse(s) == " " + r;
        CollapseShape(rest);
        SpaceRunStep(s, rest, r);
      } else {
        var r := Collapse(s[1..]);
        assert Collapse(s) == [s[0]] + r;
        CollapseShape(s[1..]);
        WordCharStep(s, r);
      }
    }
  }

  /** The whitespace branch of `Collapse`: one space, then the collapsed rest. */
  lemma SpaceRunStep(s: string, rest: string, r: string)
    requires s != [] && IsSpace(s[0])
    requires |rest| <= |s| && rest == s[|s| - |rest|..] && AllSpace(s[..|s| - |rest|])
    requires rest == [] || !IsSpace(rest[0])
    requires SingleSpaced(r) && (r == [] <==> rest == [])
    requires rest != [] ==> !IsSpace(r[0]) && (IsSpace(r[|r| - 1]) <==> IsSpace(rest[|rest| - 1]))
    ensures SingleSpaced(" " + r)
    ensures IsSpace((" " + r)[0])
    ensures IsSpace((" " + r)[|r|]) <==> IsSpace(s[|s| - 1])
  {
    var x := " " + r;
    forall i | 0 <= i < |x| - 1 ensures !IsSpace(x[i]) || !IsSpace(x[i + 1]) {
      if i > 0 {
        assert x[i] == r[i - 1] && x[i + 1] == r[i];
      }
    }
    if rest == [] {
      assert s[|s| - 1] == s[..|s| - |rest|][|s| - 1];
    } else {
      assert s[|s| - 1] == rest[|rest| - 1];
    }
  }

  /** The non-whitespace branch of `Collapse`: the character, then the collapsed rest. */
  lemma WordCharStep(s: string, r: string)
    requires s != [] && !IsSpace(s[0])
    requires SingleSpaced(r) && (r == [] <==> s[1..] == [])
    requires s[1..] != [] ==> (IsSpace(r[0]) <==> IsSpace(s[1])) && (IsSpace(r[|r| - 1]) <==> IsSpace(s[|s| - 1]))
    ensures SingleSpaced([s[0]] + r)
    ensures ([s[0]] + r)[0] == s[0]
    ensures IsSpace(([s[0]] + r)[|r|]) <==> IsSpace(s[|s| - 1])
  {
    var x := [s[0]] + r;
    forall i | 0 <= i < |x| - 1 ensures !IsSpace(x[i]) || !IsSpace(x[i + 1]) {
      if i > 0 {
        assert x[i] == r[i - 1] && x[i + 1] == r[i];
      }
    }
    if r != [] {
      assert s[1..][0] == s[1];
    }
  }

  /** `clean_address`: null stays null; text is stripped, then whitespace runs collapse. */
  function CleanAddress(addr: Option<string>): (r: Option<string>)
    ensures r.None? <==> addr.None?
    ensures r.Some? ==> Normalized(r.value)
  {
    match addr
    case None => None
    case Some(s) => Some(Clean(s))
  }

  /** The text part of `clean_address`. */
  function Clean(s: string): (r: string)
    ensures Normalized(r)
    ensures r == [] <==> AllSpace(s)
  {
    CollapseShape(Strip(s));
    Collapse(Strip(s))
  }

  /** What `clean_address` promises of its output: no whitespace at either end, and
      the only whitespace inside is single spaces, never two in a row. */
  predicate Normalized(s: string) {
    && (s == [] || (!IsSpace(s[0]) && !IsSpace(s[|s| - 1])))
    && SingleSpaced(s)
  }

  // ---------------------------------------------------------------------------
  // Idempotence

  /** The only whitespace is single spaces, never two whitespace characters in a row. */
  predicate SingleSpaced(s: string) {
    && (forall i :: 0 <= i < |s| && IsSpace(s[i]) ==> s[i] == ' ')
    && (forall i :: 0 <= i < |s| - 1 ==> !IsSpace(s[i]) || !IsSpace(s[i + 1]))
  }

  lemma SingleSpacedTail(s: string)
    requires s != [] && SingleSpaced(s)
    ensures SingleSpaced(s[1..])
    ensures IsSpace(s[0]) ==> s[0] == ' ' && (s[1..] == [] || !IsSpace(s[1..][0]))
  {
    assert forall i :: 0 <= i < |s| - 1 ==> s[1..][i] == s[i + 1];
  }

  lemma {:induction false} CollapseFixpoint(s: string)
    requires SingleSpaced(s)
    ensures Collapse(s) == s
    decreases |s|
  {
    if s != [] {
      SingleSpacedTail(s);
      CollapseFixpoint(s[1..]);
      if IsSpace(s[0]) {
        assert LStrip(s[1..]) == s[1..];
        assert LStrip(s) == s[1..];
        assert Collapse(s) == " " + s[1..];
      } else {
        assert Collapse(s) == [s[0]] + s[1..];
      }
      assert s == [s[0]] + s[1..];
    }
  }

  /** A normalized string is a fixed point of the normalizer. */
  lemma NormalizedIsFixpoint(s: string)
    requires Normalized(s)
    ensures Clean(s) == s
  {
    assert LStrip(s) == s;
    assert RStrip(s) == s;
    CollapseFixpoint(s);
  }

  /** `clean_address` is idempotent. */
  lemma CleanIdempotent(addr: Option<string>)
    ensures CleanAddress(CleanAddress(addr)) == CleanAddress(addr)
  {
    if addr.Some? {
      NormalizedIsFixpoint(Clean(addr.value));
    }
  }

  // ---------------------------------------------------------------------------
  // Reference definition: the words of the text joined by single spaces
  // (Python's `' '.join(s.split())`).

  /** Length of the leading run of non-whitespace characters of `t`. */
  function WordEnd(t: string): (n: nat)
    ensures n <= |t|
    ensures NoSpace(t[..n])
    ensures n < |t| ==> IsSpace(t[n])
  {
    if t == [] || IsSpace(t[0]) then 0 else 1 + WordEnd(t[1..])
  }

  /** `s.split()`: the maximal runs of non-whitespace characters, in order. */
  function Words(s: string): (ws: seq<string>)
    ensures forall i :: 0 <= i < |ws| ==> ws[i] != [] && NoSpace(ws[i])
    decreases |s|
  {
    var t := LStrip(s);
    if t == [] then []
    else
      var n := WordEnd(t);
      var w := t[..n];
      assert w != [] && NoSpace(w) by {
        assert w[0] == t[0];
      }
      var ws := Words(t[n..]);
      assert forall i :: 0 < i <= |ws| ==> ([w] + ws)[i] == ws[i - 1];
      [w] + ws
  }

  /** `' '.join(ws)`. */
  function JoinWords(ws: seq<string>): string {
    if ws == [] then []
    else if |ws| == 1 then ws[0]
    else ws[0] + " " + JoinWords(ws[1..])
  }

  lemma {:induction false} RStripTrailingSpace(a: string, b: string)
    requires AllSpace(b)
    ensures RStrip(a + b) == RStrip(a)
    decreases |b|
  {
    if b != [] {
      assert (a + b)[..|a + b| - 1] == a + b[..|b| - 1];
      RStripTrailingSpace(a, b[..|b| - 1]);
    } else {
      assert a + b == a;
    }
  }

  lemma {:induction false} RStripConcat(a: string, b: string, k: nat)
    requires k < |b| && !IsSpace(b[k])
    ensures RStrip(a + b) == a + RStrip(b)
    decreases |b|
  {
    if IsSpace(b[|b| - 1]) {
      assert (a + b)[..|a + b| - 1] == a + b[..|b| - 1];
      RStripConcat(a, b[..|b| - 1], k);
    }
  }

  lemma {:induction false} LStripLeadingSpace(a: string, b: string)
    requires AllSpace(a)
    ensures LStrip(a + b) == LStrip(b)
    decreases |a|
  {
    if a != [] {
      assert (a + b)[1..] == a[1..] + b;
      LStripLeadingSpace(a[1..], b);
    } else {
      assert a + b == b;
    }
  }

  lemma {:induction false} CollapseWord(a: string, b: string)
    requires NoSpace(a)
    ensures Collapse(a + b) == a + Collapse(b)
    decreases |a|
  {
    if a != [] {
      assert (a + b)[1..] == a[1..] + b;
      CollapseWord(a[1..], b);
    } else {
      assert a + b == b;
    }
  }

  /** The last word: nothing but whitespace follows it. */
  lemma LastWord(w: string, rest: string)
    requires w != [] && NoSpace(w)
    requires LStrip(rest) == []
    ensures Collapse(RStrip(w + rest)) == JoinWords([w] + Words(rest))
  {
    BlankRest(rest);
    RStripTrailingSpace(w, rest);
    assert RStrip(w) == w;
    CollapseOfWord(w);
    assert [w] + Words(rest) == [w];
  }

  lemma BlankRest(rest: string)
    requires LStrip(rest) == []
    ensures AllSpace(rest) && Words(rest) == []
  {
    assert rest == rest[..|rest|];
  }

  lemma CollapseOfWord(w: string)
    requires NoSpace(w)
    ensures Collapse(w) == w
  {
    CollapseWord(w, []);
    assert w + [] == w;
  }

  /** A word followed by a whitespace run and more text. */
  lemma InnerWord(w: string, sp: string, u: string)
    requires w != [] && NoSpace(w)
    requires sp != [] && AllSpace(sp)
    requires u != [] && !IsSpace(u[0])
    ensures Collapse(RStrip(w + (sp + u))) == w + " " + Collapse(RStrip(u))
  {
    var v := RStripKeepsHead(u);
    RStripAfterWord(w, sp, u);
    CollapseWordSpace(w, sp, v);
  }

  lemma RStripKeepsHead(u: string) returns (v: string)
    requires u != [] && !IsSpace(u[0])
    ensures v == RStrip(u) && v != [] && v[0] == u[0]
  {
    v := RStrip(u);
    assert u == v + u[|v|..];
  }

  lemma RStripAfterWord(w: string, sp: string, u: string)
    requires u != [] && !IsSpace(u[0])
    ensures RStrip(w + (sp + u)) == w + (sp + RStrip(u))
  {
    RStripConcat(w, sp + u, |sp|);
    RStripConcat(sp, u, 0);
  }

  lemma CollapseWordSpace(w: string, sp: string, v: string)
    requires w != [] && NoSpace(w)
    requires sp != [] && AllSpace(sp)
    requires v != [] && !IsSpace(v[0])
    ensures Collapse(w + (sp + v)) == w + " " + Collapse(v)
  {
    CollapseWord(w, sp + v);
    CollapseSpaceRun(sp, v);
    assert w + (" " + Collapse(v)) == w + " " + Collapse(v);
  }

  lemma JoinWordsCons(w: string, ws: seq<string>)
    requires ws != []
    ensures JoinWords([w] + ws) == w + " " + JoinWords(ws)
  {
    assert ([w] + ws)[1..] == ws;
  }

  lemma CollapseSpaceRun(sp: string, v: string)
    requires sp != [] && AllSpace(sp)
    requires v != [] && !IsSpace(v[0])
    ensures Collapse(sp + v) == " " + Collapse(v)
  {
    var x := sp + v;
    assert x[0] == sp[0];
    LStripLeadingSpace(sp, v);
    assert LStrip(x) == v;
  }

  lemma {:induction false} StrippedIsJoinedWords(t: string)
    requires t == [] || !IsSpace(t[0])
    ensures Collapse(RStrip(t)) == JoinWords(Words(t))
    decreases |t|
  {
    if t != [] {
      var n := WordEnd(t);
      var u := LStrip(t[n..]);
      if u != [] {
        StrippedIsJoinedWords(u);
      }
      WordStep(t, n, u);
    }
  }

  /** One step of the induction above: the first word of `t`, then the rest. */
  lemma WordStep(t: string, n: nat, u: string)
    requires t != [] && !IsSpace(t[0])
    requires n == WordEnd(t) && u == LStrip(t[n..])
    requires u != [] ==> Collapse(RStrip(u)) == JoinWords(Words(u))
    ensures Collapse(RStrip(t)) == JoinWords(Words(t))
  {
    var w, rest := t[..n], t[n..];
    FirstWord(t, n);
    if u == [] {
      LastWord(w, rest);
    } else {
      var sp := LeadingSpace(rest);
      InnerWordJoined(w, sp, u);
    }
  }

  lemma InnerWordJoined(w: string, sp: string, u: string)
    requires w != [] && NoSpace(w)
    requires sp != [] && AllSpace(sp)
    requires u != [] && !IsSpace(u[0]) && u == LStrip(sp + u)
    requires Collapse(RStrip(u)) == JoinWords(Words(u))
    ensures Collapse(RStrip(w + (sp + u))) == JoinWords([w] + Words(sp + u))
  {
    InnerWord(w, sp, u);
    assert Words(sp + u) == Words(u);
    JoinWordsCons(w, Words(u));
  }

  /** The whitespace that `LStrip` removes from a string that starts with whitespace. */
  lemma LeadingSpace(s: string) returns (sp: string)
    requires s != [] && IsSpace(s[0])
    ensures s == sp + LStrip(s)
    ensures sp != [] && AllSpace(sp)
  {
    var r := LStrip(s);
    sp := s[..|s| - |r|];
    assert |r| < |s|;
  }

  lemma FirstWord(t: string, n: nat)
    requires t != [] && !IsSpace(t[0])
    requires n == WordEnd(t)
    ensures t == t[..n] + t[n..]
    ensures t[..n] != [] && NoSpace(t[..n])
    ensures Words(t) == [t[..n]] + Words(t[n..])
  {
    WordsUnfold(t);
    WordSplit(t, n);
  }

  lemma WordsUnfold(t: string)
    requires t != [] && !IsSpace(t[0])
    ensures Words(t) == [t[..WordEnd(t)]] + Words(t[WordEnd(t)..])
  {
    assert LStrip(t) == t;
  }

  lemma WordSplit(t: string, n: nat)
    requires t != [] && !IsSpace(t[0])
    requires n == WordEnd(t)
    ensures t == t[..n] + t[n..]
    ensures t[..n] != [] && NoSpace(t[..n])
  {
    assert n == 1 + WordEnd(t[1..]);
  }

  lemma {:induction false} LStripIdempotent(s: string)
    ensures LStrip(LStrip(s)) == LStrip(s)
  {
  }

  lemma {:induction false} WordsAfterLStrip(s: string)
    ensures Words(LStrip(s)) == Words(s)
  {
    LStripIdempotent(s);
  }

  /** `str.strip()` ignores whitespace added around its argument. */
  lemma StripIgnoresSurroundingSpace(a: string, s: string, b: string)
    requires AllSpace(a) && AllSpace(b)
    ensures Strip(a + s + b) == Strip(s)
  {
    assert a + s + b == a + (s + b);
    LStripLeadingSpace(a, s + b);
    if LStrip(s) == [] {
      BlankOfLStrip(s);
      BlankConcat(s, b);
      LStripOfBlank(s + b);
    } else {
      var l := LStrip(s);
      var p := s[..|s| - |l|];
      assert s == p + l;
      LStripAppend(p, l, b);
      RStripTrailingSpace(l, b);
    }
  }

  lemma LStripOfBlank(s: string)
    requires AllSpace(s)
    ensures LStrip(s) == []
  {
    LStripLeadingSpace(s, []);
    assert s + [] == s;
  }

  lemma BlankOfLStrip(s: string)
    requires LStrip(s) == []
    ensures AllSpace(s)
  {
    assert s[..|s|] == s;
  }

  lemma LStripOfWordStart(t: string)
    requires t != [] && !IsSpace(t[0])
    ensures LStrip(t) == t
  {
  }

  lemma BlankConcat(s: string, b: string)
    requires AllSpace(s) && AllSpace(b)
    ensures AllSpace(s + b)
  {
    assert forall i :: |s| <= i < |s + b| ==> (s + b)[i] == b[i - |s|];
  }

  lemma LStripAppend(p: string, l: string, b: string)
    requires AllSpace(p) && l != [] && !IsSpace(l[0])
    ensures LStrip(p + l + b) == l + b
  {
    assert p + l + b == p + (l + b);
    LStripLeadingSpace(p, l + b);
    assert (l + b)[0] == l[0];
    LStripOfWordStart(l + b);
  }

  /** The normalizer agrees with the independent definition "split into words,
      join with single spaces". */
  lemma CleanIsJoinedWords(s: string)
    ensures Clean(s) == JoinWords(Words(s))
  {
    StrippedIsJoinedWords(LStrip(s));
    WordsAfterLStrip(s);
  }
}

=== FILE: py_numbers.dfy ===
/** Python's `int()` on base-10 text and `str()` on integers, as far as the scripts
    rely on them: the `.env` port and the integer columns of the generated CSV. */
module PyNumbers {
  import opened Wrappers
  import Normalizer


  predicate IsDigit(c: char) {
    '0' <= c <= '9'
  }

  function DigitValue(c: char): nat
    requires IsDigit(c)
  {
    (c as int) - ('0' as int)
  }

  function DigitChar(d: nat): (c: char)
    requires d < 10
    ensures IsDigit(c) && DigitValue(c) == d
  {
    ('0' as int + d) as char
  }

  /** The number an all-digit string denotes in base 10. */
  function DecimalValue(ds: string): nat
    requires forall i :: 0 <= i < |ds| ==> IsDigit(ds[i])
  {
    if ds == [] then 0 else DecimalValue(ds[..|ds| - 1]) * 10 + DigitValue(ds[|ds| - 1])
  }

  predicate AllDigits(s: string) {
    forall i :: 0 <= i < |s| ==> IsDigit(s[i])
  }

  /** `s` without underscores. */
  function DropUnderscores(s: string): (r: string)
    ensures |r| <= |s|
    ensures forall i :: 0 <= i < |r| ==> r[i] != '_'
    ensures (forall i :: 0 <= i < |s| ==> s[i] != '_') ==> r == s
    ensures (forall i :: 0 <= i < |s| ==> IsDigit(s[i]) || s[i] == '_') ==> AllDigits(r)
  {
    if s == [] then []
    else if s[0] == '_' then DropUnderscores(s[1..])
    else [s[0]] + DropUnderscores(s[1..])
  }

  /** Digits, with single underscores allowed between two digits (`1_000`). */
  predicate DigitGroups(s: string) {
    && s != [] && IsDigit(s[0]) && IsDigit(s[|s| - 1])
    && (forall i :: 0 <= i < |s| ==> IsDigit(s[i]) || s[i] == '_')
    && (forall i :: 0 <= i < |s| - 1 ==> s[i] == '_' ==> s[i + 1] != '_')
  }

  /** Removing underscores distributes over concatenation; with the cases of a
      single character this pins the result down completely. */
  lemma {:induction false} DropUnderscoresConcat(a: string, b: string)
    ensures DropUnderscores(a + b) == DropUnderscores(a) + DropUnderscores(b)
  {
    if a == [] {
      assert a + b == b;
    } else {
      assert (a + b)[0] == a[0] && (a + b)[1..] == a[1..] + b;
      DropUnderscoresConcat(a[1..], b);
    }
  }

  function Pow10(n: nat): (p: nat)
    ensures p >= 1
  {
    if n == 0 then 1 else 10 * Pow10(n - 1)
  }

  /** Appending digits shifts the value by one decimal place per digit. */
  lemma {:induction false} DecimalValueConcat(x: string, y: string)
    requires AllDigits(x) && AllDigits(y)
    ensures DecimalValue(x + y) == DecimalValue(x) * Pow10(|y|) + DecimalValue(y)
  {
    if y == [] {
      assert x + y == x;
    } else {
      var y' := y[..|y| - 1];
      var xy := x + y;
      assert xy[..|xy| - 1] == x + y' && xy[|xy| - 1] == y[|y| - 1];
      DecimalValueConcat(x, y');
      ShiftStep(DecimalValue(x), Pow10(|y'|), DecimalValue(y'), DigitValue(y[|y| - 1]));
    }
  }

  lemma ShiftStep(v: nat, p: nat, w: nat, d: nat)
    ensures (v * p + w) * 10 + d == v * (10 * p) + (w * 10 + d)
  {
    calc {
      (v * p + w) * 10 + d;
      (v * p) * 10 + w * 10 + d;
      { assert (v * p) * 10 == v * (10 * p); }
      v * (10 * p) + (w * 10 + d);
    }
  }

  /** The unsigned part of `int()`: digit groups and their value, or `None`. */
  function ParseDigits(body: string): (r: Option<nat>)
    ensures r.Some? <==> DigitGroups(body)
    ensures AllDigits(body) && body != [] ==> r == Some(DecimalValue(body))
  {
    if DigitGroups(body) then Some(DecimalValue(DropUnderscores(body))) else None
  }

  /** An underscore between two digit groups only separates them: `int("1_000")`
      is 1000, the value of the digits written together. */
  lemma ParseDigitsSeparated(a: string, b: string)
    requires DigitGroups(a) && DigitGroups(b)
    ensures ParseDigits(a + "_" + b).Some?
    ensures ParseDigits(a + "_" + b).value ==
      ParseDigits(a).value * Pow10(|DropUnderscores(b)|) + ParseDigits(b).value
  {
    var s := a + "_" + b;
    SeparatedGroups(a, b);
    var da, db := DropUnderscores(a), DropUnderscores(b);
    var va := GroupsValue(a);
    var vb := GroupsValue(b);
    var v := GroupsValue(s);
    DropSeparated(a, b);
    assert AllDigits(da) && AllDigits(db);
    DecimalValueConcat(da, db);
    assert v == DecimalValue(da + db);
    assert va == DecimalValue(da) && vb == DecimalValue(db);
    Scaled(v, DecimalValue(da), DecimalValue(db), Pow10(|db|), va, vb);
  }

  lemma Scaled(v: int, x: int, y: int, p: int, x': int, y': int)
    requires v == x * p + y && x' == x && y' == y
    ensures v == x' * p + y'
  {
  }

  /** The value of digit groups, with the facts that make it well defined. */
  lemma GroupsValue(body: string) returns (v: nat)
    requires DigitGroups(body)
    ensures AllDigits(DropUnderscores(body))
    ensures v == DecimalValue(DropUnderscores(body)) && ParseDigits(body) == Some(v)
  {
    v := DecimalValue(DropUnderscores(body));
  }

  lemma DropSeparated(a: string, b: string)
    ensures DropUnderscores(a + "_" + b) == DropUnderscores(a) + DropUnderscores(b)
  {
    var u := "_";
    DropUnderscoresConcat(a + u, b);
    DropUnderscoresConcat(a, u);
    assert DropUnderscores(u) == DropUnderscores(u[1..]) == [];
  }

  lemma SeparatedGroups(a: string, b: string)
    requires DigitGroups(a) && DigitGroups(b)
    ensures DigitGroups(a + "_" + b)
  {
    var s := a + "_" + b;
    assert s[0] == a[0] && s[|s| - 1] == b[|b| - 1];
    forall i | 0 <= i < |s| ensures IsDigit(s[i]) || s[i] == '_' {
      if i < |a| { assert s[i] == a[i]; } else if i > |a| { assert s[i] == b[i - |a| - 1]; }
    }
    forall i | 0 <= i < |s| - 1 ensures s[i] == '_' ==> s[i + 1] != '_' {
      if i < |a| - 1 {
        assert s[i] == a[i] && s[i + 1] == a[i + 1];
      } else if i == |a| - 1 {
        assert s[i] == a[i];
      } else if i == |a| {
        assert s[i + 1] == b[0];
      } else {
        assert s[i] == b[i - |a| - 1] && s[i + 1] == b[i - |a|];
      }
    }
  }

  // ---------------------------------------------------------------------------
  // The whitespace `int()` skips

  /** The whitespace `int()` ignores around its digits. CPython first maps every
      non-ASCII character that `str.isspace()` accepts to a space and leaves ASCII
      as it is, then skips only tab, line feed, vertical tab, form feed, carriage
      return and space. So the ASCII separators U+001C..U+001F, which `str.strip()`
      removes, are not whitespace here: `int("\x1c5")` raises. */
  predicate IntSpace(c: char) {
    Normalizer.IsSpace(c) && !('\U{1C}' <= c <= '\U{1F}')
  }

  predicate AllIntSpace(s: string) {
    forall i :: 0 <= i < |s| ==> IntSpace(s[i])
  }

  /** The leading whitespace skip: the longest suffix not starting with `IntSpace`. */
  function IntTrimStart(s: string): (r: string)
    ensures |r| <= |s| && r == s[|s| - |r|..]
    ensures AllIntSpace(s[..|s| - |r|])
    ensures r == [] || !IntSpace(r[0])
    decreases |s|
  {
    if s != [] && IntSpace(s[0]) then
      var r := IntTrimStart(s[1..]);
      IntTrimStartStep(s, r);
      r
    else s
  }

  lemma IntTrimStartStep(s: string, r: string)
    requires s != [] && IntSpace(s[0])
    requires |r| <= |s| - 1 && r == s[1..][|s| - 1 - |r|..] && AllIntSpace(s[1..][..|s| - 1 - |r|])
    ensures r == s[|s| - |r|..] && AllIntSpace(s[..|s| - |r|])
  {
    assert s[..|s| - |r|] == [s[0]] + s[1..][..|s| - 1 - |r|];
  }

  /** The trailing whitespace skip: the longest prefix not ending with `IntSpace`. */
  function IntTrimEnd(s: string): (r: string)
    ensures |r| <= |s| && r == s[..|r|]
    ensures AllIntSpace(s[|r|..])
    ensures r == [] || !IntSpace(r[|r| - 1])
    decreases |s|
  {
    if s != [] && IntSpace(s[|s| - 1]) then
      var r := IntTrimEnd(s[..|s| - 1]);
      IntTrimEndStep(s, r);
      r
    else s
  }

  lemma IntTrimEndStep(s: string, r: string)
    requires s != [] && IntSpace(s[|s| - 1])
    requires |r| <= |s| - 1 && r == s[..|s| - 1][..|r|] && AllIntSpace(s[..|s| - 1][|r|..])
    ensures r == s[..|r|] && AllIntSpace(s[|r|..])
  {
    assert s[|r|..] == s[..|s| - 1][|r|..] + [s[|s| - 1]];
  }

  /** The text `int()` parses once the whitespace it skips is gone from both ends. */
  function IntStrip(s: string): (t: string)
    ensures t == [] || (!IntSpace(t[0]) && !IntSpace(t[|t| - 1]))
    ensures t == [] <==> AllIntSpace(s)
    ensures Normalizer.AllSpace(s) ==> Normalizer.AllSpace(t)
  {
    var l := IntTrimStart(s);
    var t := IntTrimEnd(l);
    IntStripWitness(s, l, t, |s| - |l|);
    t
  }

  /** `t` is `s` with only `int()` whitespace cut away before position `i` and after `t`. */
  predicate IntTrimmedAt(s: string, t: string, i: int) {
    0 <= i <= |s| - |t| && s[i..i + |t|] == t && AllIntSpace(s[..i]) && AllIntSpace(s[i + |t|..])
  }

  /** The text `int()` parses is a slice of its argument with only `int()`
      whitespace around it. */
  lemma IntStripTrims(s: string)
    ensures exists i :: IntTrimmedAt(s, IntStrip(s), i)
  {
    var l := IntTrimStart(s);
    var t := IntTrimEnd(l);
    IntStripWitness(s, l, t, |s| - |l|);
    assert IntStrip(s) == t;
  }

  lemma IntStripWitness(s: string, l: string, t: string, i: nat)
    requires i == |s| - |l| && |l| <= |s| && l == s[i..] && AllIntSpace(s[..i])
    requires |t| <= |l| && t == l[..|t|] && AllIntSpace(l[|t|..])
    requires l == [] || !IntSpace(l[0])
    requires t == [] || !IntSpace(t[|t| - 1])
    ensures IntTrimmedAt(s, t, i)
    ensures t == [] || (!IntSpace(t[0]) && !IntSpace(t[|t| - 1]))
    ensures t == [] <==> AllIntSpace(s)
    ensures Normalizer.AllSpace(s) ==> Normalizer.AllSpace(t)
  {
    assert s[i + |t|..] == l[|t|..];
    if t == [] {
      assert s == s[..i] + s[i..];
    } else {
      assert t[0] == l[0] == s[i];
    }
    if Normalizer.AllSpace(s) {
      forall j | 0 <= j < |t| ensures Normalizer.IsSpace(t[j]) {
        assert t[j] == s[i + j];
      }
    }
  }

  /** Text that the `int()` whitespace skip leaves as it is. */
  lemma IntStripKeepsEnds(s: string)
    requires s != [] && !IntSpace(s[0]) && !IntSpace(s[|s| - 1])
    ensures IntStrip(s) == s
  {
    assert IntTrimStart(s) == s;
  }

  /** The text after an optional leading sign. */
  function Unsigned(t: string): (body: string)
    requires t != []
    ensures |body| == |t| || (|body| == |t| - 1 && (t[0] == '+' || t[0] == '-'))
  {
    if t[0] == '+' || t[0] == '-' then t[1..] else t
  }

  /** `int()` of a stripped, non-empty string: one optional sign, then digits. */
  function ParseSigned(t: string): Option<int>
    requires t != []
  {
    if t[0] == '-' then
      match ParseDigits(t[1..]) case Some(v) => Some(-(v as int)) case None => None
    else if t[0] == '+' then
      match ParseDigits(t[1..]) case Some(v) => Some(v as int) case None => None
    else
      match ParseDigits(t) case Some(v) => Some(v as int) case None => None
  }

  /** `int(s)` for a base-10 string: surrounding whitespace, one optional sign, then
      ASCII digit groups; anything else raises, which is `None` here. */
  function PyInt(s: string): (r: Option<int>)
    ensures r.Some? ==> !Normalizer.AllSpace(s)
  {
    var t := IntStrip(s);
    if t == [] then None
    else
      var r := ParseSigned(t);
      assert r.Some? ==> !Normalizer.AllSpace(s) by {
        if r.Some? && Normalizer.AllSpace(s) {
          SpaceNotSignOrDigit(t[0]);
        }
      }
      r
  }

  lemma SpaceNotSignOrDigit(c: char)
    requires Normalizer.IsSpace(c)
    ensures c != '+' && c != '-' && !IsDigit(c)
  {
  }

  /** `int(s)` succeeds exactly on text that, once stripped, is one optional sign
      followed by digit groups, and then gives the signed value of the digits. */
  lemma PyIntMeaning(s: string)
    ensures PyInt(s).Some? <==> (var t := IntStrip(s); t != [] && DigitGroups(Unsigned(t)))
    ensures PyInt(s).Some? ==>
      var t := IntStrip(s);
      var ds := DropUnderscores(Unsigned(t));
      && AllDigits(ds)
      && PyInt(s).value == if t[0] == '-' then -(DecimalValue(ds) as int) else DecimalValue(ds) as int
  {
    var t := IntStrip(s);
    if t != [] {
      var body := Unsigned(t);
      assert ParseDigits(body).Some? <==> DigitGroups(body);
      if DigitGroups(body) {
        assert AllDigits(DropUnderscores(body));
        assert ParseDigits(body) == Some(DecimalValue(DropUnderscores(body)));
      }
    }
  }

  /** `str(n)` for a natural number: its base-10 digits, without leading zeros. */
  function NatToStr(n: nat): (s: string)
    ensures s != [] && forall i :: 0 <= i < |s| ==> IsDigit(s[i])
    ensures |s| == 1 <==> n < 10
    ensures s[0] == '0' <==> n == 0
    ensures |s| > 1 ==> s[0] != '0'
  {
    if n < 10 then [DigitChar(n)] else NatToStr(n / 10) + [DigitChar(n % 10)]
  }

  /** `str(n)` for an integer: a minus sign exactly for negative numbers, then the
      digits of the magnitude. */
  function IntToStr(n: int): (s: string)
    ensures s != [] && (s[0] == '-' <==> n < 0)
    ensures forall i :: (if n < 0 then 1 else 0) <= i < |s| ==> IsDigit(s[i])
  {
    if n < 0 then "-" + NatToStr(-n) else NatToStr(n)
  }

  lemma {:induction false} DecimalValueOfNatToStr(n: nat)
    ensures DecimalValue(NatToStr(n)) == n
  {
    if n >= 10 {
      var s := NatToStr(n);
      assert s[..|s| - 1] == NatToStr(n / 10);
      DecimalValueOfNatToStr(n / 10);
    }
  }

  lemma StripKeepsNonSpaceEnds(s: string)
    requires s != [] && !Normalizer.IsSpace(s[0]) && !Normalizer.IsSpace(s[|s| - 1])
    ensures Normalizer.Strip(s) == s
  {
    assert Normalizer.LStrip(s) == s;
  }

  lemma DigitNotSpace(c: char)
    requires IsDigit(c)
    ensures !Normalizer.IsSpace(c)
  {
  }

  /** The decimal digits of a number parse back to it. */
  lemma ParseNatToStr(m: nat)
    ensures ParseDigits(NatToStr(m)) == Some(m)
  {
    DecimalValueOfNatToStr(m);
  }

  /** A non-empty run of ASCII digits parses to its decimal value. */
  lemma PyIntOfDigits(ds: string)
    requires ds != [] && AllDigits(ds)
    ensures PyInt(ds) == Some(DecimalValue(ds))
  {
    DigitNotSpace(ds[0]);
    DigitNotSpace(ds[|ds| - 1]);
    IntStripKeepsEnds(ds);
    assert ds[0] != '-' && ds[0] != '+';
  }

  /** Parsing `str(n)` back yields `n`. */
  lemma IntRoundTrip(n: int)
    ensures PyInt(IntToStr(n)) == Some(n)
  {
    var s := IntToStr(n);
    var m := if n < 0 then -n else n;
    var ds := NatToStr(m);
    ParseNatToStr(m);
    DigitNotSpace(ds[0]);
    DigitNotSpace(ds[|ds| - 1]);
    if n < 0 {
      assert s[1..] == ds && s[|s| - 1] == ds[|ds| - 1];
      IntStripKeepsEnds(s);
      assert s[0] == '-';
      assert ParseSigned(s) == Some(-m);
    } else {
      assert s == ds;
      IntStripKeepsEnds(s);
      assert s[0] != '-' && s[0] != '+';
      assert ParseSigned(s) == Some(m);
    }
  }

  /** Any character other than a digit or an underscore, past an optional leading
      sign, makes `int()` raise: `54a2`, `1.5`, `0x1F`, `5432 # prod` give no port. */
  lemma StrayCharacterRejected(s: string, i: nat)
    requires var t := IntStrip(s);
      && i < |t| && !IsDigit(t[i]) && t[i] != '_'
      && (i == 0 ==> t[0] != '+' && t[0] != '-')
    ensures PyInt(s).None?
  {
    var t := IntStrip(s);
    PyIntMeaning(s);
    var body := Unsigned(t);
    if |body| == |t| - 1 {
      assert body == t[1..] && body[i - 1] == t[i];
    } else {
      assert body == t;
    }
  }

  /** A leading file, group, record or unit separator (U+001C..U+001F) makes
      `int()` raise, although `str.strip()` would have removed it. */
  lemma LeadingSeparatorRejected(s: string)
    requires s != [] && '\U{1C}' <= s[0] <= '\U{1F}'
    ensures Normalizer.IsSpace(s[0])
    ensures PyInt(s).None?
  {
    assert IntTrimStart(s) == s;
    var t := IntStrip(s);
    assert !AllIntSpace(s);
    assert t[0] == s[0];
    StrayCharacterRejected(s, 0);
  }

  /** Two underscores in a row make `int()` raise, as does an underscore at either
      end of the digits. */
  lemma MisplacedUnderscoreRejected(s: string, i: nat)
    requires var t := IntStrip(s);
      t != [] && i < |Unsigned(t)| && Unsigned(t)[i] == '_'
      && (i == 0 || i == |Unsigned(t)| - 1 || Unsigned(t)[i + 1] == '_')
    ensures PyInt(s).None?
  {
    PyIntMeaning(s);
  }
}

=== FILE: structure_parser.dfy ===
/** The tolerant structure parsers: the three `parse_address` functions of
    `explode_address.py`, `locations_expansion.py` and `explode_address_final.py`.

    The concrete decoders (`json.loads`, `ast.literal_eval`) are abstract partial
    functions `Decoder<V>`: `None` stands for "raised an exception", `Some(p)` for
    the decoded Python value. Their grammars are not part of this model. */
module StructureParser {
  import opened Wrappers
  import Normalizer

  /** Keys of a Python dict are pairwise distinct. */
  predicate DistinctKeys<V>(fields: seq<(string, V)>) {
    forall i, j :: 0 <= i < j < |fields| ==> fields[i].0 != fields[j].0
  }

  /** A decoded mapping: a Python dict as key/value pairs in insertion order. Keys
      are text, as every JSON object key is; dicts with non-text keys that a Python
      literal can denote (`{1: 'a'}`) are outside this model. */
  type Structure<V> = fields: seq<(string, V)> | DistinctKeys(fields) witness []

  /** What a decoder can return: a mapping, or some other value (a list, a number,
      a string) whose column expansion is left to the table library. */
  datatype Parsed<V> = Mapping(fields: Structure<V>) | NonMapping(value: V)

  /** A decoder: `None` when it raises, otherwise the decoded value. */
  type Decoder<V> = string -> Option<Parsed<V>>

  /** The `{}` every `parse_address` returns instead of raising. */
  function EmptyStructure<V>(): Parsed<V> {
    Mapping([])
  }

  /** Ordered fallback: the result of the first decoder in `decoders` that succeeds
      on `text`, or `None` when all of them fail. */
  function FirstSuccess<P>(decoders: seq<string -> Option<P>>, text: string): (r: Option<P>)
    ensures r.None? <==> forall i :: 0 <= i < |decoders| ==> decoders[i](text).None?
    ensures r.Some? ==>
      exists i :: 0 <= i < |decoders| && decoders[i](text) == r &&
        forall j :: 0 <= j < i ==> decoders[j](text).None?
  {
    if decoders == [] then None
    else
      match decoders[0](text)
      case Some(p) => Some(p)
      case None =>
        var r := FirstSuccess(decoders[1..], text);
        assert forall i :: 1 <= i < |decoders| ==> decoders[i] == decoders[1..][i - 1];
        r
  }

  /** Once a decoder succeeds, the decoders after it are never consulted: replacing
      them changes nothing. */
  lemma {:induction false} FirstSuccessIgnoresLater<P>(
    decoders: seq<string -> Option<P>>, later: seq<string -> Option<P>>,
    later': seq<string -> Option<P>>, k: nat, text: string)
    requires k < |decoders| && decoders[k](text).Some?
    ensures FirstSuccess(decoders + later, text) == FirstSuccess(decoders + later', text)
    decreases |decoders|
  {
    var a, b := decoders + later, decoders + later';
    assert a[0] == decoders[0] == b[0];
    if decoders[0](text).None? {
      assert a[1..] == decoders[1..] + later;
      assert b[1..] == decoders[1..] + later';
      FirstSuccessIgnoresLater(decoders[1..], later, later', k - 1, text);
    }
  }

  // ---------------------------------------------------------------------------
  // explode_address.py

  /** `parse_address` of `explode_address.py`: null gives `{}`; otherwise the text is
      cleaned, then JSON is tried, then the Python-literal decoder, then `{}`. */
  function ParseTolerant<V>(json: Decoder<V>, literal: Decoder<V>, addr: Option<string>): (r: Parsed<V>)
    ensures addr.None? ==> r == EmptyStructure()
    ensures addr.Some? ==>
      var text := Normalizer.Clean(addr.value);
      && (json(text).Some? ==> r == json(text).value)
      && (json(text).None? && literal(text).Some? ==> r == literal(text).value)
      && (json(text).None? && literal(text).None? ==> r == EmptyStructure())
  {
    match Normalizer.CleanAddress(addr)
    case None => EmptyStructure()
    case Some(text) =>
      FirstSuccessOfTwo(json, literal, text);
      FirstSuccess([json, literal], text).GetOr(EmptyStructure())
  }

  lemma FirstSuccessOfTwo<P>(first: string -> Option<P>, second: string -> Option<P>, text: string)
    ensures FirstSuccess([first, second], text) == if first(text).Some? then first(text) else second(text)
  {
    assert [first, second][1..] == [second];
    assert [second][1..] == [];
  }

  /** The literal decoder is consulted only when JSON fails: with JSON succeeding,
      any two literal decoders give the same result. */
  lemma LiteralOnlyAfterJsonFails<V>(json: Decoder<V>, literal: Decoder<V>, literal': Decoder<V>, s: string)
    requires json(Normalizer.Clean(s)).Some?
    ensures ParseTolerant(json, literal, Some(s)) == ParseTolerant(json, literal', Some(s))
    ensures ParseTolerant(json, literal, Some(s)) == json(Normalizer.Clean(s)).value
  {
    var text := Normalizer.Clean(s);
    assert ParseTolerant(json, literal, Some(s)) == json(text).value;
    assert ParseTolerant(json, literal', Some(s)) == json(text).value;
  }

  /** The parser never raises: every result is a decoder's output on the cleaned
      text, or `{}`; and `{}` is what it returns when both decoders fail. */
  lemma TolerantNeverFails<V>(json: Decoder<V>, literal: Decoder<V>, addr: Option<string>)
    ensures var r := ParseTolerant(json, literal, addr);
      || r == EmptyStructure()
      || (addr.Some? && Some(r) in {json(Normalizer.Clean(addr.value)), literal(Normalizer.Clean(addr.value))})
    ensures addr.Some? && json(Normalizer.Clean(addr.value)).None? && literal(Normalizer.Clean(addr.value)).None?
      ==> ParseTolerant(json, literal, addr) == EmptyStructure()
  {
    if addr.Some? {
      var text := Normalizer.Clean(addr.value);
      var r := ParseTolerant(json, literal, addr);
      if json(text).Some? {
        assert Some(r) == json(text);
      } else if literal(text).Some? {
        assert Some(r) == literal(text);
      }
    }
  }

  /** Both decoders see the same normalized text, so a blob that differs from another
      only in whitespace runs or surrounding whitespace decodes identically. */
  lemma TolerantSeesCleanedText<V>(json: Decoder<V>, literal: Decoder<V>, s: string, s': string)
    requires Normalizer.Words(s) == Normalizer.Words(s')
    ensures ParseTolerant(json, literal, Some(s)) == ParseTolerant(json, literal, Some(s'))
  {
    Normalizer.CleanIsJoinedWords(s);
    Normalizer.CleanIsJoinedWords(s');
  }

  // ---------------------------------------------------------------------------
  // locations_expansion.py

  /** `parse_address` of `locations_expansion.py`: null gives `{}`; otherwise the raw
      text goes to the JSON decoder unchanged, and a failure gives `{}`. */
  function ParseJsonOnly<V>(json: Decoder<V>, addr: Option<string>): (r: Parsed<V>)
    ensures addr.None? ==> r == EmptyStructure()
    ensures addr.Some? && json(addr.value).Some? ==> r == json(addr.value).value
    ensures addr.Some? && json(addr.value).None? ==> r == EmptyStructure()
  {
    if addr.None? then EmptyStructure() else json(addr.value).GetOr(EmptyStructure())
  }

  /** There is no second strategy: on already-normalized text the JSON-only parser
      is the tolerant one whose literal decoder fails. */
  lemma JsonOnlyIsTolerantWithoutFallback<V>(json: Decoder<V>, literal: Decoder<V>, s: string)
    requires Normalizer.Clean(s) == s && literal(s).None?
    ensures ParseJsonOnly(json, Some(s)) == ParseTolerant(json, literal, Some(s))
  {
    var r := ParseTolerant(json, literal, Some(s));
    if json(s).Some? {
      assert r == json(s).value;
    } else {
      assert r == EmptyStructure();
    }
  }

  /** The JSON-only parser does not clean its input: whenever cleaning changes the
      text, a JSON decoder that accepts only the cleaned form succeeds inside the
      tolerant parser but fails here. */
  lemma JsonOnlyDoesNotClean<V>(s: string, v: V)
    requires Normalizer.Clean(s) != s
    ensures var json: Decoder<V> := t => if t == Normalizer.Clean(s) then Some(NonMapping(v)) else None;
      && ParseJsonOnly(json, Some(s)) == EmptyStructure()
      && ParseTolerant(json, _ => None, Some(s)) == NonMapping(v)
  {
  }

  // ---------------------------------------------------------------------------
  // explode_address_final.py

  /** `parse_address` of `explode_address_final.py`: null, empty or all-whitespace
      text gives `{}` without decoding; otherwise the raw text goes to the
      Python-literal decoder alone, and a failure gives `{}`. */
  function ParseLiteralOnly<V>(literal: Decoder<V>, addr: Option<string>): (r: Parsed<V>)
    ensures addr.None? || Normalizer.AllSpace(addr.value) ==> r == EmptyStructure()
    ensures addr.Some? && !Normalizer.AllSpace(addr.value) ==> r == literal(addr.value).GetOr(EmptyStructure())
  {
    if addr.None? || Normalizer.Strip(addr.value) == "" then EmptyStructure()
    else literal(addr.value).GetOr(EmptyStructure())
  }

  /** The blank guard keeps blank text away from the decoder: the result does not
      depend on the decoder at all. */
  lemma BlankNeverDecoded<V>(literal: Decoder<V>, literal': Decoder<V>, s: string)
    requires Normalizer.AllSpace(s)
    ensures ParseLiteralOnly(literal, Some(s)) == ParseLiteralOnly(literal', Some(s)) == EmptyStructure()
  {
  }

  /** No JSON attempt and no normalization: a non-blank blob reaches the literal
      decoder exactly as written. */
  lemma LiteralOnlySeesRawText<V>(literal: Decoder<V>, literal': Decoder<V>, s: string)
    requires !Normalizer.AllSpace(s) && literal(s) == literal'(s)
    ensures ParseLiteralOnly(literal, Some(s)) == ParseLiteralOnly(literal', Some(s))
  {
  }
}

=== FILE: wrappers.dfy ===
/** Failure-compatible wrappers shared by every module of the model:
    `Option` for Python's `None`-or-value and `Result` for an operation that can raise. */
module Wrappers {

  /** A value that may be absent (Python `None`, a pandas null, a missing dict key). */
  datatype Option<+T> = None | Some(value: T) {

    /** The wrapped value, or `default` when absent. */
    function GetOr(default: T): T {
      match this
      case Some(v) => v
      case None => default
    }
  }

  /** The outcome of an operation that either returns a value or raises an error. */
  datatype Result<+R, +E> = Success(value: R) | Failure(error: E)
}
